=== FILE: README.md ===
# XDL download protocol: a Dafny model

`xdl.py` is a host-side client for the XDL serial download protocol of
VeriFone payment terminals. The host probes the terminal with ENQ until it
answers with a frame tagged "VFI" and then acknowledges with ACK. After that
it can show messages ("M"), set configuration variables ("L"), upload files
("O", then "W" chunks, then "C") and end the session ("S").

This project models the protocol core of that client as pure Dafny
functions and proves properties about them:

- **Checksums** (`parity.dfy`, `shift_register.dfy`, `crc_table.dfy`,
  `crc16.dfy`, `checksum.dfy`):
  - the command checksum `__checksum`;
  - the table-driven `__crc16_buypass`, with its 256-entry table copied
    verbatim;
  - a bit-serial shift-register definition of CRC-16/BUYPASS (polynomial
    0x8005, initial value 0, no reflection, no final XOR).

  Every table entry is proved to equal the shift register, so each step of
  the table loop, and the loop itself, computes the bit-serial CRC. Each
  step of the command checksum is proved to equal a table step, so the
  command checksum computes the very same CRC from any accumulator. The
  check value on "123456789" is 0xFEE8.
- **Framing** (`framing.dfy`): the bytes `__send_command` writes.
  - An ordinary frame is STX, the command, ETX, and the big-endian checksum
    of the command and ETX.
  - With `exclude_checksum`, it is STX and the command only.
  - `Unframe` is a reference check defined by this model, not code from
    the source: it accepts exactly the frames `Encode` produces and inverts
    it.
- **Reader** (`reader.dfy`): `__get_response` as a function of the bytes
  that arrive before the deadline. It returns one of three things:
  - a one-byte signal (ENQ or ACK);
  - a frame: STX, then every byte up to the first ETX that has two more
    bytes after it, with the checksum not verified;
  - `TimedOut`, which stands for the `None` the source returns.
- **Commands** (`commands.dfy`): the payloads of M, L, O, W, C and S.
  `Parse` is a reference reading of payloads defined by this model; it
  inverts the payload builders on every recoverable command, and so shows
  that no two recoverable commands share a payload. Two "L" commands whose
  name or value holds FS can share one.
- **Upload** (`upload.dfy`): the chunk loop of `send_file`.
  - The file is cut into 1000-byte chunks.
  - Each chunk is preceded by a progress message.
  - Each chunk is sent as `STX STX 'W' BE16(len) BE32(offset) chunk
    BE16(crc16(…))`: a second STX and a CRC, and no ETX marker before the CRC.
- **Session** (`session.dfy`): the `XDL` methods `connect`, `message`,
  `set_config_var`, `send_file` and `stop`. Each is a state transition that
  returns:
  - the new session state;
  - the byte strings written to the port, one per `ser.write`;
  - what the method returns: `False`, `None`, the connection string, or an
    exception.

  `Decoded` combines the reference decoders to read a write back as a
  command. It checks the CRC-16/BUYPASS trailer of any write whose second
  byte is STX, whatever its opcode, and the command checksum of any other
  write. Because that alone does not pin the frame, the session contracts
  also state the exact frame through `Unframe`, which accepts only what
  `Encode` writes. The terminal's own parser is not part of the source, so
  "reads back" below always means this reference decoder.

A few facts the proofs pin down:

- The CRC-16/BUYPASS check value the code computes for "123456789" is
  0xFEE8. Published catalogues list the same value.
- The "O" header is 40 bytes:
  - opcode and kind: 2 bytes;
  - unknown field: 16 bytes;
  - timestamp: 14 bytes;
  - filler: 8 bytes.
- The connection string is the reply frame without its STX, ETX and
  checksum. It therefore begins with "VFI".
- The reader ends a frame at its first ETX that has two more bytes after
  it. An ordinary frame whose command holds ETX is therefore read back
  truncated (`Reader.EncodedFrameReadBack` states the exact condition).
- An "L" command whose variable name holds the FS separator (0x1C) cannot
  be split back into name and value. It is the only command the reference
  decoder cannot read back unambiguously (`Commands.ParsePayload` requires
  `Recoverable`).

## Model

| member | source | states |
|---|---|---|
| Parity.Folded | xdl.py:25-28 | the loop variable `x` stays below 0x100 after its XOR-shift updates, because the accumulator is 16 bits |
| Checksum.ChecksumStep | xdl.py:25-29 | one iteration of `__checksum` equals one table step of `__crc16_buypass` and eight clocks of the poly-0x8005 shift register |
| Checksum.CommandChecksum | xdl.py:23-30 | `__checksum(buf, check)` is the bit-serial CRC of `buf` from register value `check`, and agrees with the table loop from the same value |
| Checksum.CommandChecksumFold | xdl.py:23-30 | the checksum of nothing is the initial accumulator; checksumming `a + b` equals checksumming `b` from the checksum of `a` |
| Checksum.CrcCheckValue | xdl.py:32-72 | the CRC of "123456789" is 0xFEE8 |
| CrcTable.TableEntryIsRegister | xdl.py:33-66 | every one of the 256 table entries equals the bit-serial poly-0x8005 register after eight clocks from `i << 8` |
| CrcTable.TableEntryIsFold | xdl.py:33-66 | every table entry equals the spread parity fold that `__checksum` computes for the same index |
| Crc16.TableIndex | xdl.py:70 | the table index `(crc >> 8) ^ byte` fits in one byte, so the lookup never leaves the table |
| Crc16.TableStepIsRegisterStep | xdl.py:70 | the table update XORs into the shifted register what eight register clocks would add |
| Crc16.CrcStep | xdl.py:70-71 | one iteration of the CRC loop equals feeding the byte, MSB first, through the shift register |
| Crc16.CrcFrom | xdl.py:68-72 | the CRC loop from any register value equals the bit-serial CRC from that value |
| Crc16.Crc16Buypass | xdl.py:32-72 | `__crc16_buypass` is the bit-serial CRC-16/BUYPASS of the data, and 0 for empty data |
| Bytes.Be16 | xdl.py:120 | `struct.pack(">H", n)` is two bytes whose big-endian value is `n` |
| Bytes.Be32 | xdl.py:263 | `struct.pack(">I", n)` is four bytes whose big-endian value is `n` |
| Bytes.Be16OfValue | xdl.py:120 | any two bytes are the big-endian packing of their value (the packing is onto) |
| Bytes.Be32OfValue | xdl.py:263 | any four bytes are the big-endian packing of their value |
| Framing.FrameChecksum | xdl.py:120 | the frame checksum is below 0x10000 and is CRC-16/BUYPASS of the command followed by ETX |
| Framing.Encode | xdl.py:118-127 | a frame is four bytes longer than its command: STX, the command, ETX third from the end, and a trailer that is the CRC of everything between STX and the trailer |
| Framing.EncodeBare | xdl.py:115-116 | with `exclude_checksum`, the write is STX followed by exactly the command |
| Framing.Wire | xdl.py:112-127 | every write starts with STX; a bare write carries the command after it; an ordinary write passes the reference check and yields the command |
| Framing.UnframeEncode | xdl.py:118-127 | every encoded frame passes the reference check and yields its command |
| Framing.EncodeUnframe | xdl.py:118-127 | every frame that passes the reference check is exactly the encoding of its command |
| Framing.EncodeInjective | xdl.py:118-127 | two commands are encoded alike if and only if they are equal |
| Reader.GetResponse | xdl.py:76-108 | a returned signal is ENQ or ACK; a returned frame starts with STX, has ETX third from the end and no earlier ETX |
| Reader.Await | xdl.py:82-99 | outside a frame, a signal it returns is ENQ or ACK, and a frame it returns is well delimited |
| Reader.Collect | xdl.py:100-108 | inside a frame, the reader never returns a signal; a returned frame is a delimited prefix of the frame so far plus the input; a timeout leaves the frame unfinished |
| Reader.QuietIsSkipped | xdl.py:88-99 | bytes other than STX, ENQ and ACK in front of the input do not change the answer |
| Reader.QuietTimesOut | xdl.py:82-99 | input made only of dropped bytes gives None |
| Reader.FrameAnswers | xdl.py:94-108 | a frame at the head of the input is returned whole, whatever follows |
| Reader.UnfinishedTimesOut | xdl.py:100-108 | a frame that is opened and never completed gives None |
| Reader.SignalIff | xdl.py:88-91 | the reader returns signal `b` if and only if `b` is ENQ or ACK and comes first after dropped bytes only |
| Reader.FrameIff | xdl.py:94-108 | the reader returns frame `f` if and only if `f` is a delimited frame that starts right after dropped bytes only |
| Reader.TimedOutIff | xdl.py:76-108 | the reader gives None if and only if every byte is dropped, or a frame is opened after dropped bytes and never completes |
| Reader.FrameIsFirstCompletion | xdl.py:104 | a delimited frame is exactly a string opened by STX that meets the completion test at its full length and at no shorter length |
| Reader.EncodedFrameReadBack | xdl.py:94-127 | the reader returns a host-encoded frame whole if and only if its command holds no ETX |
| Commands.OpenHeader | xdl.py:224-229 | the part of an "O" payload before the file name is 40 bytes, starting with "O" and "C" for code or "D" for data |
| Commands.Payload | xdl.py:194-291 | every payload built at lines 194-196 (M), 207 (L), 224-231 (O), 260-265 (W), 281 (C) and 291 (S) starts with its command's opcode letter |
| Commands.ParsePayload | xdl.py:194-291 | every command the host can build, except an "L" whose name holds FS, is recovered from its payload by the reference reading |
| Commands.PayloadParse | xdl.py:194-291 | every payload the reference reading accepts is the payload of the command it yields |
| Commands.PayloadInjective | xdl.py:194-291 | two recoverable commands share a payload if and only if they are equal |
| Upload.ChunkCount | xdl.py:241-247 | the loop reads `ceil(n / 1000)` chunks: they cover `n` bytes, and one fewer would not |
| Upload.ChunkOf | xdl.py:242-247 | every chunk read is non-empty and at most 1000 bytes |
| Upload.ChunkLength | xdl.py:242-243 | every chunk but the last is 1000 bytes; the last holds what remains |
| Upload.ChunksCover | xdl.py:239-278 | the chunks, concatenated in order, are the file |
| Upload.ProgressText | xdl.py:253 | the progress message is "-", backspace, "[", the bar, "]" |
| Upload.ProgressWire | xdl.py:253 | the progress write passes the reference check and carries an "M" payload with the progress message |
| Upload.SealedWrite | xdl.py:267-274 | the argument passed for a chunk is STX, the "W" command, and its bit-serial CRC-16/BUYPASS in big-endian order |
| Upload.WriteWire | xdl.py:260-275 | a chunk write is the chunk length plus 11 bytes: two STX, a payload the reference reading takes as that chunk at that offset, and the CRC of that payload right after it, so no ETX marker precedes the CRC |
| Upload.SendChunks | xdl.py:249-253 | while bytes remain, each turn of the chunk loop writes first the progress message for the current offset and counter |
| Upload.ExpectedWrites | xdl.py:239-278 | the loop described by position: two writes per chunk |
| Upload.SendChunksWrites | xdl.py:239-278 | when every offset fits, the loop writes, for chunk k, the progress frame for offset 1000k and counter k, then the "W" frame of chunk k at offset 1000k, and finishes normally |
| Upload.SendChunksCompletes | xdl.py:262-263 | the loop finishes without an exception if and only if every chunk offset fits in four bytes |
| Upload.SendChunksRaises | xdl.py:253-263 | from any chunk before one whose offset does not fit, the loop ends in an exception |
| Session.Handshake | xdl.py:156-172 | an accepted reply yields a connection string that begins with "VFI" and holds no ETX |
| Session.HandshakeCases | xdl.py:156-164 | a turn retries if and only if nothing waits or the reader gives None; it rejects if and only if it gets a signal or an untagged frame |
| Session.ConnectLoop | xdl.py:141-174 | connected if and only if the connection string is returned, and then recorded in the session; otherwise the session is unchanged; every turn writes ENQ; a successful handshake ends with ACK; the loop is still running if and only if every turn retried |
| Session.Connect | xdl.py:136-174 | `connect()` on a connected session writes nothing and returns False; otherwise it connects if and only if it returns the connection string |
| Session.ConnectRetries | xdl.py:156-160 | a turn without a usable reply only adds one ENQ in front of what the following turns do |
| Session.ConnectRejects | xdl.py:162-164 | a turn that reads a signal or a frame not tagged "VFI" ends `connect()` with False after one ENQ, the session unchanged |
| Session.HandshakeReadsIdentity | xdl.py:141-174 | on any disconnected session, including one stopped before, a tagged ETX-free frame after line noise connects with that command as the connection string, after one ENQ and one ACK |
| Session.TaggedFrameAccepted | xdl.py:156-167 | a tagged ETX-free host-style frame after line noise is accepted with its command as identity |
| Session.TaggedFrameHandshake | xdl.py:162-167 | a turn whose reply is a frame tagged "VFI" accepts the frame minus STX, ETX and checksum |
| Session.AcceptConnects | xdl.py:166-174 | on any disconnected session, an accepting first turn connects after one ENQ and one ACK and returns the connection string |
| Session.CommandWire | xdl.py:112-127 | the frame written for any command except "W" is the ordinary frame of its payload, which `Unframe` accepts and yields; it is read back as that command by the reference decoder, unless it is an "L" whose variable name holds FS |
| Session.SendMessage | xdl.py:176-196 | without a connection, nothing is written and the result is False; otherwise the result is None and exactly one write is made, the ordinary frame of "M" followed by the message, which reads back as that message |
| Session.SetConfigVar | xdl.py:198-207 | without a connection, nothing is written and the result is False; otherwise the result is None and one frame is written carrying "L", the name, FS and the value, which reads back as that variable when the name has no FS |
| Session.StopSession | xdl.py:286-296 | the session always ends disconnected, keeping its connection string; without a connection the result is False and nothing is written; otherwise the result is None and exactly one write is made, the ordinary frame of "S", which reads back as "S" |
| Session.CommandsWriteFrames | xdl.py:118-127 | on a connected session, `message` writes exactly STX, "M", the message, ETX and the checksum, and `stop` exactly STX, "S", ETX and the checksum |
| Session.InitialRefusesCommands | xdl.py:11-13 | a new client is not connected, so `message`, `set_config_var`, `send_file` and `stop` each return False, write nothing and leave it unchanged |
| Session.SendFile | xdl.py:211-284 | without a connection, nothing is written and the result is False; otherwise the upload returns normally if and only if every chunk offset fits, and raises otherwise |
| Session.UploadWrites | xdl.py:223-281 | when offsets fit, the upload writes the "O" frame, the clearing "M" frame, the chunk loop's writes, then the "C" frame |
| Session.UploadOrder | xdl.py:223-281 | as the reference decoder reads them, the writes are "O", clear screen, then for each chunk its progress message and the chunk at offset 1000k, then "C", with `2 * chunks + 3` writes in all |

## Left out

- Serial I/O, `in_waiting` and the 0.2 s read deadline are not modelled. The bytes that arrive before a deadline are an input sequence; running out of input is the timeout.
- The replies `__send_command` reads after each write are not modelled, because every caller ignores them. The bytes they consume are therefore not tracked between operations.
- `time.sleep` and the repeat delay of `connect` are not modelled; they only affect timing.
- Logging, the console spinner and the console percentage are not modelled; they only write to stdout.
- The progress bar bytes are not computed. They depend on floating-point division (`math.ceil(already_sent / file_size * 12)`), so the model takes them as a function `bar(already_sent, i)`.
- Opening the file, `os.fstat` and `os.path.basename` are not modelled. The file contents and base name are inputs.
- ASCII encoding and decoding failures are not modelled. Strings are byte strings throughout, so a non-ASCII variable, file name or connection string, which makes the source raise, is out of scope.
- `message` with an argument that is neither `str` nor `bytes` (which sends nothing and returns None) is not modelled. Messages are byte strings.
- Frame checksum verification is not modelled because the source does not do it.
- The terminal's real parsing of frames and payloads is not known from the source. `Unframe`, `Parse` and `Decoded` are reference decoders defined by this model. What they show is that the host's writes carry enough to be decoded unambiguously, not how a terminal decodes them.
- `main` and argument parsing are not modelled; they are command-line plumbing. Of the `XDL` constructor, only `self.connected = False` is modelled (`Session.Initial`, with `Session.InitialRefusesCommands`); opening the port and the logging flag are not.
- Session.ConnectLoop: the source loops until it gets a reply it can judge. The model runs over a finite list of turns and reports `StillConnecting` when that list runs out.
- Session.SetConfigVar: the read-back claim is restricted to names without FS, because the source does nothing to escape FS in a name.

=== FILE: bytes.dfy ===
/**
  Bytes, the control bytes of the XDL wire protocol, ASCII literals and the
  big-endian integer packing that `struct.pack(">H", …)` and
  `struct.pack(">I", …)` perform in xdl.py.
 */
module Bytes {

  /** One octet, as Python's `bytes` elements are: an integer in 0..255. */
  type byte = x: int | 0 <= x < 0x100

  /** Opens every frame. */
  const STX: byte := 0x02
  /** Marks the start of the two checksum bytes of a frame. */
  const ETX: byte := 0x03
  /** The host's "are you there" probe; also a one-byte signal from the terminal. */
  const ENQ: byte := 0x05
  /** Acknowledgement; also a one-byte signal from the terminal. */
  const ACK: byte := 0x06
  /** Separates a configuration variable's name from its value. */
  const FS: byte := 0x1C

  /** The bytes of an ASCII string (the source's `str.encode("ascii")`). */
  function Ascii(s: string): (r: seq<byte>)
    requires forall i :: 0 <= i < |s| ==> s[i] as int < 0x80
    ensures |r| == |s|
    ensures forall i :: 0 <= i < |s| ==> r[i] == s[i] as int
  {
    seq(|s|, i requires 0 <= i < |s| => s[i] as int)
  }

  /** The unsigned big-endian integer a byte string denotes. */
  function BeValue(s: seq<byte>): nat
  {
    if |s| == 0 then 0 else BeValue(s[..|s| - 1]) * 0x100 + s[|s| - 1]
  }

  /** `struct.pack(">H", n)`: two bytes, most significant first. */
  function Be16(n: nat): (r: seq<byte>)
    requires n < 0x1_0000
    ensures |r| == 2 && BeValue(r) == n
  {
    var r := [n / 0x100, n % 0x100];
    BeValuePair(r);
    r
  }

  /** `struct.pack(">I", n)`: four bytes, most significant first. */
  function Be32(n: nat): (r: seq<byte>)
    requires n < 0x1_0000_0000
    ensures |r| == 4 && BeValue(r) == n
  {
    var hi, lo := n / 0x1_0000, n % 0x1_0000;
    BeValueAppend(Be16(hi), Be16(lo));
    Be16(hi) + Be16(lo)
  }

  /** The value of a two-byte string. */
  lemma BeValuePair(s: seq<byte>)
    requires |s| == 2
    ensures BeValue(s) == s[0] as int * 0x100 + s[1] as int
  {
    var s0 := s[..1];
    assert s0[..0] == [];
    assert BeValue(s0) == s[0];
  }

  /** Appending two bytes shifts the value of the prefix up by sixteen bits. */
  lemma BeValueAppend(a: seq<byte>, b: seq<byte>)
    requires |b| == 2
    ensures BeValue(a + b) == BeValue(a) * 0x1_0000 + BeValue(b)
  {
    var a1 := a + [b[0]];
    assert (a + b)[..|a + b| - 1] == a1;
    assert a1[..|a1| - 1] == a;
    BeValuePair(b);
  }

  /** Every two-byte string is the packing of its own value. */
  lemma Be16OfValue(s: seq<byte>)
    requires |s| == 2
    ensures BeValue(s) < 0x1_0000 && Be16(BeValue(s)) == s
  {
    BeValuePair(s);
  }

  /** Every four-byte string is the packing of its own value. */
  lemma Be32OfValue(s: seq<byte>)
    requires |s| == 4
    ensures BeValue(s) < 0x1_0000_0000 && Be32(BeValue(s)) == s
  {
    var hi, lo := s[..2], s[2..];
    assert s == hi + lo;
    BeValueAppend(hi, lo);
    Be16OfValue(hi);
    Be16OfValue(lo);
    var v := BeValue(s);
    assert v / 0x1_0000 == BeValue(hi) && v % 0x1_0000 == BeValue(lo);
  }
}

=== FILE: checksum.dfy ===
/**
  The command checksum of the XDL protocol (xdl.py:23-30), which seals every
  ordinary frame. Each iteration is one table step of CRC-16/BUYPASS in
  disguise, so the loop computes the bit-serial CRC from its accumulator, and
  from the default accumulator 0 it is `__crc16_buypass`.
 */
module Checksum {
  import opened Bytes
  import opened Parity
  import opened ShiftRegister
  import opened CrcTable
  import opened Crc16

  /** One iteration of the checksum loop (xdl.py:25-29). It equals one step
      of the table-driven CRC, and so eight clocks of the shift register. */
  function ChecksumStep(acc: bv16, b: bv16): (r: bv16)
    requires b < 0x100
    ensures r == CrcStep(acc, b)
    ensures r == RegisterStep(acc, b)
  {
    FoldStepIsCrcStep(acc, b);
    (acc << 8) ^ Spread(Folded(acc, b))
  }

  /** `__checksum(buf, check)`: a left fold of `ChecksumStep` from `acc`. It
      agrees with the CRC loop of `__crc16_buypass` and with the bit-serial
      CRC, from any start value. */
  function CommandChecksum(buf: seq<byte>, acc: bv16): (r: bv16)
    ensures r == RegisterCrc(buf, acc)
    ensures r == CrcFrom(buf, acc)
  {
    if |buf| == 0 then acc else CommandChecksum(buf[1..], ChecksumStep(acc, buf[0] as bv16))
  }

  /** The checksum of nothing is the initial accumulator, and checksumming a
      concatenation is checksumming the second part from the first part's
      result, so frames can be sealed incrementally. */
  lemma {:induction false} CommandChecksumFold(a: seq<byte>, b: seq<byte>, acc: bv16)
    ensures CommandChecksum([], acc) == acc
    ensures CommandChecksum(a + b, acc) == CommandChecksum(b, CommandChecksum(a, acc))
  {
    if |a| > 0 {
      var next := ChecksumStep(acc, a[0] as bv16);
      assert (a + b)[0] == a[0];
      assert (a + b)[1..] == a[1..] + b;
      CommandChecksumFold(a[1..], b, next);
    } else {
      assert a + b == b;
    }
  }

  /** The checksum's update is one CRC step, and so one register step. */
  lemma FoldStepIsCrcStep(acc: bv16, b: bv16)
    requires b < 0x100
    ensures (acc << 8) ^ Spread(Folded(acc, b)) == CrcStep(acc, b)
    ensures (acc << 8) ^ Spread(Folded(acc, b)) == RegisterStep(acc, b)
  {
    hide *;
    FoldStepIsTableStep(acc, b);
    CrcStepUnfolds(acc, b);
  }

  /** The definition of `CrcStep`, as a fact to cite where definitions are hidden. */
  lemma CrcStepUnfolds(crc: bv16, b: bv16)
    requires b < 0x100
    ensures CrcStep(crc, b) == (crc << 8) ^ TableEntry(TableIndex(crc, b))
  {}

  /** The checksum's update equals the table update of the same index. */
  lemma FoldStepIsTableStep(acc: bv16, b: bv16)
    requires b < 0x100
    ensures (acc << 8) ^ Spread(Folded(acc, b)) == (acc << 8) ^ TableEntry(TableIndex(acc, b))
  {
    hide *;
    ChecksumStepFolds(acc, b);
    XorFoldEntry(acc << 8, TableIndex(acc, b));
  }

  lemma XorCommutes(a: bv16, b: bv16)
    ensures a ^ b == b ^ a
  {}

  /** The table entry may replace the parity-fold entry under an XOR. */
  lemma XorFoldEntry(u: bv16, i: bv8)
    ensures u ^ FoldEntry(i) == u ^ TableEntry(i)
  {
    TableEntryIsFold(i);
    XorRight(u, FoldEntry(i), TableEntry(i));
  }

  /** One checksum iteration XORs the parity fold of the table index into
      the shifted accumulator. */
  lemma ChecksumStepFolds(acc: bv16, b: bv16)
    requires b < 0x100
    ensures (acc << 8) ^ Spread(Folded(acc, b)) == (acc << 8) ^ FoldEntry(TableIndex(acc, b))
  {
    hide *;
    FoldedIsIndexFold(acc, b);
    XorRight(acc << 8, Spread(Folded(acc, b)), FoldEntry(TableIndex(acc, b)));
  }

  /** The checksum's loop variable, before its parity fold, is the table index. */
  lemma FoldedIsIndexFold(acc: bv16, b: bv16)
    requires b < 0x100
    ensures Spread(Folded(acc, b)) == FoldEntry(TableIndex(acc, b))
  {
    XorCommutes(b, acc >> 8);
  }

  /** Digits "123" of the check-value computation. */
  lemma CheckValue123()
    ensures CommandChecksum([0x31, 0x32, 0x33], 0x0000) == 0xAF7E
  {
    hide *;
    var d: seq<byte> := [0x31, 0x32, 0x33];
    Step0000With31();
    Step80A5With32();
    StepA6ACWith33();
    CommandChecksumUnfolds(d, 0x0000);
    CommandChecksumUnfolds(d[1..], 0x80A5);
    CommandChecksumUnfolds(d[1..][1..], 0xA6AC);
    CommandChecksumEmpty(d[1..][1..][1..], 0xAF7E);
  }

  /** Digits "456" of the check-value computation. */
  lemma CheckValue456()
    ensures CommandChecksum([0x34, 0x35, 0x36], 0xAF7E) == 0xB16E
  {
    hide *;
    var d: seq<byte> := [0x34, 0x35, 0x36];
    StepAF7EWith34();
    StepFD59With35();
    StepDBB3With36();
    CommandChecksumUnfolds(d, 0xAF7E);
    CommandChecksumUnfolds(d[1..], 0xFD59);
    CommandChecksumUnfolds(d[1..][1..], 0xDBB3);
    CommandChecksumEmpty(d[1..][1..][1..], 0xB16E);
  }

  /** Digits "789" of the check-value computation. */
  lemma CheckValue789()
    ensures CommandChecksum([0x37, 0x38, 0x39], 0xB16E) == 0xFEE8
  {
    hide *;
    var d: seq<byte> := [0x37, 0x38, 0x39];
    StepB16EWith37();
    StepED17With38();
    Step95FDWith39();
    CommandChecksumUnfolds(d, 0xB16E);
    CommandChecksumUnfolds(d[1..], 0xED17);
    CommandChecksumUnfolds(d[1..][1..], 0x95FD);
    CommandChecksumEmpty(d[1..][1..][1..], 0xFEE8);
  }

  /** One turn of `CommandChecksum`, as a fact to cite where definitions are hidden. */
  lemma CommandChecksumUnfolds(buf: seq<byte>, acc: bv16)
    requires |buf| > 0
    ensures CommandChecksum(buf, acc) == CommandChecksum(buf[1..], ChecksumStep(acc, buf[0] as bv16))
  {}

  /** The end of `CommandChecksum`, as a fact to cite where definitions are hidden. */
  lemma CommandChecksumEmpty(buf: seq<byte>, acc: bv16)
    requires |buf| == 0
    ensures CommandChecksum(buf, acc) == acc
  {}

  // One checksum iteration per digit of "123456789", from the value before it.

  lemma StepA6ACWith33()
    ensures ChecksumStep(0xA6AC, 0x33) == 0xAF7E
  {
    hide CrcStep, RegisterStep;
  }

  lemma Step80A5With32()
    ensures ChecksumStep(0x80A5, 0x32) == 0xA6AC
  {
    hide CrcStep, RegisterStep;
  }

  lemma Step0000With31()
    ensures ChecksumStep(0x0000, 0x31) == 0x80A5
  {
    hide CrcStep, RegisterStep;
  }

  lemma StepDBB3With36()
    ensures ChecksumStep(0xDBB3, 0x36) == 0xB16E
  {
    hide CrcStep, RegisterStep;
  }

  lemma StepFD59With35()
    ensures ChecksumStep(0xFD59, 0x35) == 0xDBB3
  {
    hide CrcStep, RegisterStep;
  }

  lemma StepAF7EWith34()
    ensures ChecksumStep(0xAF7E, 0x34) == 0xFD59
  {
    hide CrcStep, RegisterStep;
  }

  lemma Step95FDWith39()
    ensures ChecksumStep(0x95FD, 0x39) == 0xFEE8
  {
    hide CrcStep, RegisterStep;
  }

  lemma StepED17With38()
    ensures ChecksumStep(0xED17, 0x38) == 0x95FD
  {
    hide CrcStep, RegisterStep;
  }

  lemma StepB16EWith37()
    ensures ChecksumStep(0xB16E, 0x37) == 0xED17
  {
    hide CrcStep, RegisterStep;
  }

  /** The catalogue check value: the CRC of ASCII "123456789" is 0xFEE8. */
  lemma CrcCheckValue()
    ensures Crc16Buypass([0x31, 0x32, 0x33, 0x34, 0x35, 0x36, 0x37, 0x38, 0x39]) == 0xFEE8
  {
    var digits: seq<byte> := [0x31, 0x32, 0x33, 0x34, 0x35, 0x36, 0x37, 0x38, 0x39];
    assert digits == [0x31, 0x32, 0x33] + ([0x34, 0x35, 0x36] + [0x37, 0x38, 0x39]);
    CheckValue123();
    CheckValue456();
    CheckValue789();
    CommandChecksumFold([0x34, 0x35, 0x36], [0x37, 0x38, 0x39], 0xAF7E);
    CommandChecksumFold([0x31, 0x32, 0x33], [0x34, 0x35, 0x36] + [0x37, 0x38, 0x39], 0);
  }
}

=== FILE: commands.dfy ===
/**
  The command payloads the host sends (xdl.py:194-196, 207, 224-231,
  260-265, 281, 291): an opcode letter followed by a fixed layout. `Parse`
  is the reference decoder of payloads defined by this model; it inverts
  `Payload` on every recoverable command, so no two recoverable commands
  share a payload. Two "L" commands can share one when FS occurs in a
  variable name or value.
 */
module Commands {
  import opened Wrappers
  import opened Bytes

  /** The commands of the protocol, with their fields as raw bytes. */
  datatype Command =
    | Message(text: seq<byte>)                  // "M": show text on the display
    | SetVar(name: seq<byte>, value: seq<byte>) // "L": set a configuration variable
    | Open(code: bool, basename: seq<byte>)     // "O": announce a code or data file
    | Write(offset: nat, chunk: seq<byte>)      // "W": one chunk of file contents
    | Close                                     // "C": end of file
    | Stop                                      // "S": end of session

  const MessageOp: byte := 'M' as byte
  const SetVarOp: byte := 'L' as byte
  const OpenOp: byte := 'O' as byte
  const WriteOp: byte := 'W' as byte
  const CloseOp: byte := 'C' as byte
  const StopOp: byte := 'S' as byte

  /** The file kind byte of an open command: 'C' for code, 'D' for data. */
  const CodeKind: byte := 'C' as byte
  const DataKind: byte := 'D' as byte

  /** The fixed fields of an open command (xdl.py:227-229): sixteen bytes of
      unknown meaning, a fixed timestamp and eight filler bytes. */
  const OpenUnknown: seq<byte> := Ascii("000000C300000000")
  const OpenTimestamp: seq<byte> := Ascii("20220102112233")
  const OpenFiller: seq<byte> := Ascii("XXXXXXXX")

  /** The opcode, kind and fixed fields that precede the file name. */
  function OpenHeader(code: bool): (h: seq<byte>)
    ensures |h| == 40
    ensures h[0] == OpenOp && h[1] == (if code then CodeKind else DataKind)
  {
    [OpenOp, if code then CodeKind else DataKind] + OpenUnknown + OpenTimestamp + OpenFiller
  }

  /** The commands whose payload the source can build without raising:
      `struct.pack` rejects a chunk length of 2^16 or more and an offset of
      2^32 or more. */
  predicate Buildable(c: Command)
  {
    match c
    case Write(offset, chunk) => |chunk| < 0x1_0000 && offset < 0x1_0000_0000
    case _ => true
  }

  /** The commands `Parse` recovers: the buildable ones, except an "L"
      command whose variable name holds the FS separator, since its payload
      cannot be split back into name and value. */
  predicate Recoverable(c: Command)
  {
    Buildable(c) && (c.SetVar? ==> forall i :: 0 <= i < |c.name| ==> c.name[i] != FS)
  }

  /** The opcode letter each command's payload starts with. */
  function Opcode(c: Command): byte
  {
    match c
    case Message(_) => MessageOp
    case SetVar(_, _) => SetVarOp
    case Open(_, _) => OpenOp
    case Write(_, _) => WriteOp
    case Close => CloseOp
    case Stop => StopOp
  }

  /** The payload bytes the source builds for a command. */
  function Payload(c: Command): (p: seq<byte>)
    requires Buildable(c)
    ensures |p| > 0 && p[0] == Opcode(c)
  {
    match c
    case Message(text) => [MessageOp] + text
    case SetVar(name, value) => [SetVarOp] + name + [FS] + value
    case Open(code, basename) => OpenHeader(code) + basename
    case Write(offset, chunk) => [WriteOp] + Be16(|chunk|) + Be32(offset) + chunk
    case Close => [CloseOp]
    case Stop => [StopOp]
  }

  /** The position of the first `x` in `s`, or `|s|` when there is none. */
  function FirstIndex(s: seq<byte>, x: byte): (k: nat)
    ensures k <= |s|
    ensures k < |s| ==> s[k] == x
    ensures forall i :: 0 <= i < k ==> s[i] != x
  {
    if |s| == 0 then 0
    else if s[0] == x then 0
    else 1 + FirstIndex(s[1..], x)
  }

  /** The reference decoder of a payload defined by this model: the
      command it denotes, or None for bytes no command produces. */
  function Parse(p: seq<byte>): (r: Option<Command>)
  {
    if |p| == 0 then None
    else if p[0] == MessageOp then Some(Message(p[1..]))
    else if p[0] == SetVarOp then
      var k := FirstIndex(p[1..], FS);
      if k == |p| - 1 then None else Some(SetVar(p[1..][..k], p[1..][k + 1..]))
    else if p[0] == OpenOp then
      if |p| < 40 || (p[1] != CodeKind && p[1] != DataKind) || p[..40] != OpenHeader(p[1] == CodeKind) then None
      else Some(Open(p[1] == CodeKind, p[40..]))
    else if p[0] == WriteOp then
      if |p| < 7 || BeValue(p[1..3]) != |p| - 7 then None
      else Some(Write(BeValue(p[3..7]), p[7..]))
    else if p == [CloseOp] then Some(Close)
    else if p == [StopOp] then Some(Stop)
    else None
  }

  /** Every recoverable command is read back from its payload. */
  lemma ParsePayload(c: Command)
    requires Recoverable(c)
    ensures Parse(Payload(c)) == Some(c)
  {
    var p := Payload(c);
    match c
    case Message(text) =>
      assert p[1..] == text;
    case SetVar(name, value) =>
      assert p[1..] == name + [FS] + value;
      FirstIndexOfSeparator(name, value);
      assert p[1..][..|name|] == name;
      assert p[1..][|name| + 1..] == value;
    case Open(code, basename) =>
      assert p[..40] == OpenHeader(code);
      assert p[40..] == basename;
    case Write(offset, chunk) =>
      assert p[1..3] == Be16(|chunk|);
      assert p[3..7] == Be32(offset);
      assert p[7..] == chunk;
    case Close =>
    case Stop =>
  }

  /** The separator after a name free of it is found right after the name. */
  lemma FirstIndexOfSeparator(name: seq<byte>, value: seq<byte>)
    requires forall i :: 0 <= i < |name| ==> name[i] != FS
    ensures FirstIndex(name + [FS] + value, FS) == |name|
  {
    var s := name + [FS] + value;
    assert s[|name|] == FS;
    assert forall i :: 0 <= i < |name| ==> s[i] == name[i];
  }

  /** Whatever `Parse` accepts is the payload of the command it returns, so
      a payload denotes one command only. */
  lemma PayloadParse(p: seq<byte>)
    ensures Parse(p).Some? ==> Recoverable(Parse(p).value) && Payload(Parse(p).value) == p
  {
    if Parse(p).Some? {
      if p[0] == MessageOp {
        assert p == [MessageOp] + p[1..];
      } else if p[0] == SetVarOp {
        ParsedSetVar(p);
      } else if p[0] == OpenOp {
        ParsedOpen(p);
      } else if p[0] == WriteOp {
        ParsedWrite(p);
      }
    }
  }

  /** An accepted "L" payload is the payload of the variable it names. */
  lemma ParsedSetVar(p: seq<byte>)
    requires |p| > 0 && p[0] == SetVarOp && Parse(p).Some?
    ensures Recoverable(Parse(p).value) && Payload(Parse(p).value) == p
  {
    var k := FirstIndex(p[1..], FS);
    assert p == [SetVarOp] + p[1..][..k] + [FS] + p[1..][k + 1..];
  }

  /** An accepted "O" payload is the payload of the file it announces. */
  lemma ParsedOpen(p: seq<byte>)
    requires |p| > 0 && p[0] == OpenOp && Parse(p).Some?
    ensures Recoverable(Parse(p).value) && Payload(Parse(p).value) == p
  {
    assert p == p[..40] + p[40..];
  }

  /** An accepted "W" payload is the payload of the chunk it carries. */
  lemma ParsedWrite(p: seq<byte>)
    requires |p| > 0 && p[0] == WriteOp && Parse(p).Some?
    ensures Recoverable(Parse(p).value) && Payload(Parse(p).value) == p
  {
    Be16OfValue(p[1..3]);
    Be32OfValue(p[3..7]);
    assert p == [WriteOp] + p[1..3] + p[3..7] + p[7..];
  }

  /** Two recoverable commands with the same payload are the same command. */
  lemma PayloadInjective(c: Command, d: Command)
    requires Recoverable(c) && Recoverable(d)
    ensures Payload(c) == Payload(d) <==> c == d
  {
    if Payload(c) == Payload(d) {
      ParsePayload(c);
      ParsePayload(d);
    }
  }
}

=== FILE: crc16.dfy ===
/**
  The table-driven CRC-16/BUYPASS of xdl.py:32-72, which seals file-chunk
  writes, and the proof that it is the bit-serial CRC.
 */
module Crc16 {
  import opened Bytes
  import opened ShiftRegister
  import opened CrcTable

  /** The index `(crc >> 8) ^ byte` of xdl.py:70. It never exceeds 255, so
      using it as an index into a 256-entry table loses nothing. */
  function TableIndex(crc: bv16, b: bv16): (i: bv8)
    requires b < 0x100
    ensures i as bv16 == (crc >> 8) ^ b
  {
    ((crc >> 8) ^ b) as bv8
  }

  /** One iteration of the CRC loop (xdl.py:70-71): the table lookup does
      what eight clocks of the shift register do. */
  function CrcStep(crc: bv16, b: bv16): (r: bv16)
    requires b < 0x100
    ensures r == RegisterStep(crc, b)
  {
    TableStepIsRegisterStep(crc, b);
    (crc << 8) ^ TableEntry(TableIndex(crc, b))
  }

  /** The CRC loop of xdl.py:69-71 from an arbitrary register value. It
      computes the bit-serial CRC from that value. */
  function CrcFrom(data: seq<byte>, crc: bv16): (r: bv16)
    ensures r == RegisterCrc(data, crc)
  {
    if |data| == 0 then crc else CrcFrom(data[1..], CrcStep(crc, data[0] as bv16))
  }

  /** `__crc16_buypass(data)`: the CRC loop from 0. It is the bit-serial
      shift-register CRC of the data, and 0 for no data. */
  function Crc16Buypass(data: seq<byte>): (r: bv16)
    ensures r == RegisterCrc(data, 0)
    ensures |data| == 0 ==> r == 0
  {
    CrcFrom(data, 0)
  }

  /** The table-driven update of xdl.py:70-71 is eight clocks of the register. */
  lemma TableStepIsRegisterStep(crc: bv16, b: bv16)
    requires b < 0x100
    ensures (crc << 8) ^ TableEntry(TableIndex(crc, b)) == RegisterStep(crc, b)
  {
    hide *;
    RegisterStepIndexes(crc, b);
    XorRegisterEntry(crc << 8, TableIndex(crc, b));
  }

  /** Feeding a byte into the register shifts the register and XORs in the
      register value of the table index. */
  lemma RegisterStepIndexes(crc: bv16, b: bv16)
    requires b < 0x100
    ensures RegisterStep(crc, b) == (crc << 8) ^ RegisterEntry(TableIndex(crc, b))
  {
    hide *;
    RegisterStepUnfolds(crc, b);
    RegisterStepSplit(crc, b);
    ShiftedIndexEntry(crc, b);
  }

  /** The definition of `RegisterStep`, as a fact to cite where definitions are hidden. */
  lemma RegisterStepUnfolds(reg: bv16, b: bv16)
    ensures RegisterStep(reg, b) == ShiftByte(reg ^ (b << 8))
  {}

  /** The table entry may replace the register entry under an XOR. */
  lemma XorRegisterEntry(u: bv16, i: bv8)
    ensures u ^ TableEntry(i) == u ^ RegisterEntry(i)
  {
    TableEntryIsRegister(i);
    XorRight(u, TableEntry(i), RegisterEntry(i));
  }

  /** The high half of the split register step is the register entry of the index. */
  lemma ShiftedIndexEntry(crc: bv16, b: bv16)
    requires b < 0x100
    ensures (crc << 8) ^ ShiftByte(((crc >> 8) ^ b) << 8) == (crc << 8) ^ RegisterEntry(TableIndex(crc, b))
  {
    hide *;
    IndexShifted(crc, b);
    XorIndexEntry(crc << 8, ((crc >> 8) ^ b) << 8, TableIndex(crc, b));
  }

  /** Shifting the index into the high byte gives the high byte of the split. */
  lemma IndexShifted(crc: bv16, b: bv16)
    requires b < 0x100
    ensures ((crc >> 8) ^ b) << 8 == (TableIndex(crc, b) as bv16) << 8
  {}

  /** Under an XOR, eight clocks of an index in the high byte give its register entry. */
  lemma XorIndexEntry(u: bv16, x: bv16, i: bv8)
    requires x == (i as bv16) << 8
    ensures u ^ ShiftByte(x) == u ^ RegisterEntry(i)
  {
    SameArgument(ShiftByte, x, (i as bv16) << 8);
  }
}

=== FILE: crc_table.dfy ===
/**
  The 256-entry lookup table of `__crc16_buypass` (xdl.py:33-66), embedded
  verbatim, and the proof that every entry is both the shift register's value
  for its index and the command checksum's parity fold of its index.
 */
module CrcTable {
  import opened Parity
  import opened ShiftRegister

  /** Eight consecutive table entries, as the source lays them out per line. */
  type TableRow = (bv16, bv16, bv16, bv16, bv16, bv16, bv16, bv16)

  /** The 256-entry table of xdl.py:33-66, row by row. */
  const CrcTable: seq<TableRow> := [
    (0x0000, 0x8005, 0x800f, 0x000a, 0x801b, 0x001e, 0x0014, 0x8011),
    (0x8033, 0x0036, 0x003c, 0x8039, 0x0028, 0x802d, 0x8027, 0x0022),
    (0x8063, 0x0066, 0x006c, 0x8069, 0x0078, 0x807d, 0x8077, 0x0072),
    (0x0050, 0x8055, 0x805f, 0x005a, 0x804b, 0x004e, 0x0044, 0x8041),
    (0x80c3, 0x00c6, 0x00cc, 0x80c9, 0x00d8, 0x80dd, 0x80d7, 0x00d2),
    (0x00f0, 0x80f5, 0x80ff, 0x00fa, 0x80eb, 0x00ee, 0x00e4, 0x80e1),
    (0x00a0, 0x80a5, 0x80af, 0x00aa, 0x80bb, 0x00be, 0x00b4, 0x80b1),
    (0x8093, 0x0096, 0x009c, 0x8099, 0x0088, 0x808d, 0x8087, 0x0082),
    (0x8183, 0x0186, 0x018c, 0x8189, 0x0198, 0x819d, 0x8197, 0x0192),
    (0x01b0, 0x81b5, 0x81bf, 0x01ba, 0x81ab, 0x01ae, 0x01a4, 0x81a1),
    (0x01e0, 0x81e5, 0x81ef, 0x01ea, 0x81fb, 0x01fe, 0x01f4, 0x81f1),
    (0x81d3, 0x01d6, 0x01dc, 0x81d9, 0x01c8, 0x81cd, 0x81c7, 0x01c2),
    (0x0140, 0x8145, 0x814f, 0x014a, 0x815b, 0x015e, 0x0154, 0x8151),
    (0x8173, 0x0176, 0x017c, 0x8179, 0x0168, 0x816d, 0x8167, 0x0162),
    (0x8123, 0x0126, 0x012c, 0x8129, 0x0138, 0x813d, 0x8137, 0x0132),
    (0x0110, 0x8115, 0x811f, 0x011a, 0x810b, 0x010e, 0x0104, 0x8101),
    (0x8303, 0x0306, 0x030c, 0x8309, 0x0318, 0x831d, 0x8317, 0x0312),
    (0x0330, 0x8335, 0x833f, 0x033a, 0x832b, 0x032e, 0x0324, 0x8321),
    (0x0360, 0x8365, 0x836f, 0x036a, 0x837b, 0x037e, 0x0374, 0x8371),
    (0x8353, 0x0356, 0x035c, 0x8359, 0x0348, 0x834d, 0x8347, 0x0342),
    (0x03c0, 0x83c5, 0x83cf, 0x03ca, 0x83db, 0x03de, 0x03d4, 0x83d1),
    (0x83f3, 0x03f6, 0x03fc, 0x83f9, 0x03e8, 0x83ed, 0x83e7, 0x03e2),
    (0x83a3, 0x03a6, 0x03ac, 0x83a9, 0x03b8, 0x83bd, 0x83b7, 0x03b2),
    (0x0390, 0x8395, 0x839f, 0x039a, 0x838b, 0x038e, 0x0384, 0x8381),
    (0x0280, 0x8285, 0x828f, 0x028a, 0x829b, 0x029e, 0x0294, 0x8291),
    (0x82b3, 0x02b6, 0x02bc, 0x82b9, 0x02a8, 0x82ad, 0x82a7, 0x02a2),
    (0x82e3, 0x02e6, 0x02ec, 0x82e9, 0x02f8, 0x82fd, 0x82f7, 0x02f2),
    (0x02d0, 0x82d5, 0x82df, 0x02da, 0x82cb, 0x02ce, 0x02c4, 0x82c1),
    (0x8243, 0x0246, 0x024c, 0x8249, 0x0258, 0x825d, 0x8257, 0x0252),
    (0x0270, 0x8275, 0x827f, 0x027a, 0x826b, 0x026e, 0x0264, 0x8261),
    (0x0220, 0x8225, 0x822f, 0x022a, 0x823b, 0x023e, 0x0234, 0x8231),
    (0x8213, 0x0216, 0x021c, 0x8219, 0x0208, 0x820d, 0x8207, 0x0202)
  ]

  /** `table[i]`: entry `i & 7` of row `i >> 3`. */
  function TableEntry(i: bv8): bv16
  {
    RowEntry(CrcTable[(i >> 3) as int], i & 7)
  }

  /** Entry `k` of a row. */
  function RowEntry(row: TableRow, k: bv8): bv16
    requires k < 8
  {
    if k == 0 then row.0 else if k == 1 then row.1 else if k == 2 then row.2
    else if k == 3 then row.3 else if k == 4 then row.4 else if k == 5 then row.5
    else if k == 6 then row.6 else row.7
  }

  /** The register after eight clocks from `i << 8`: what entry `i` should be. */
  function RegisterEntry(i: bv8): bv16
  {
    ShiftByte((i as bv16) << 8)
  }

  /** The checksum's spread parity fold of index `i`. */
  function FoldEntry(i: bv8): bv16
  {
    Spread(ParityFold(i as bv16))
  }

  /** Every entry of row `r` is the register value of `i << 8`. */
  ghost predicate RowIsRegister(r: bv8)
  {
    forall i: bv8 :: i >> 3 == r ==> TableEntry(i) == RegisterEntry(i)
  }

  /** Every entry of row `r` is what the command checksum's parity fold
      produces for the same index. */
  ghost predicate RowIsFold(r: bv8)
  {
    forall i: bv8 :: i >> 3 == r ==> FoldEntry(i) == TableEntry(i)
  }

  lemma TableRow00IsRegister() ensures RowIsRegister(0) {}
  lemma TableRow01IsRegister() ensures RowIsRegister(1) {}
  lemma TableRow02IsRegister() ensures RowIsRegister(2) {}
  lemma TableRow03IsRegister() ensures RowIsRegister(3) {}
  lemma TableRow04IsRegister() ensures RowIsRegister(4) {}
  lemma TableRow05IsRegister() ensures RowIsRegister(5) {}
  lemma TableRow06IsRegister() ensures RowIsRegister(6) {}
  lemma TableRow07IsRegister() ensures RowIsRegister(7) {}
  lemma TableRow08IsRegister() ensures RowIsRegister(8) {}
  lemma TableRow09IsRegister() ensures RowIsRegister(9) {}
  lemma TableRow10IsRegister() ensures RowIsRegister(10) {}
  lemma TableRow11IsRegister() ensures RowIsRegister(11) {}
  lemma TableRow12IsRegister() ensures RowIsRegister(12) {}
  lemma TableRow13IsRegister() ensures RowIsRegister(13) {}
  lemma TableRow14IsRegister() ensures RowIsRegister(14) {}
  lemma TableRow15IsRegister() ensures RowIsRegister(15) {}
  lemma TableRow16IsRegister() ensures RowIsRegister(16) {}
  lemma TableRow17IsRegister() ensures RowIsRegister(17) {}
  lemma TableRow18IsRegister() ensures RowIsRegister(18) {}
  lemma TableRow19IsRegister() ensures RowIsRegister(19) {}
  lemma TableRow20IsRegister() ensures RowIsRegister(20) {}
  lemma TableRow21IsRegister() ensures RowIsRegister(21) {}
  lemma TableRow22IsRegister() ensures RowIsRegister(22) {}
  lemma TableRow23IsRegister() ensures RowIsRegister(23) {}
  lemma TableRow24IsRegister() ensures RowIsRegister(24) {}
  lemma TableRow25IsRegister() ensures RowIsRegister(25) {}
  lemma TableRow26IsRegister() ensures RowIsRegister(26) {}
  lemma TableRow27IsRegister() ensures RowIsRegister(27) {}
  lemma TableRow28IsRegister() ensures RowIsRegister(28) {}
  lemma TableRow29IsRegister() ensures RowIsRegister(29) {}
  lemma TableRow30IsRegister() ensures RowIsRegister(30) {}
  lemma TableRow31IsRegister() ensures RowIsRegister(31) {}
  lemma TableRow00IsFold() ensures RowIsFold(0) {}
  lemma TableRow01IsFold() ensures RowIsFold(1) {}
  lemma TableRow02IsFold() ensures RowIsFold(2) {}
  lemma TableRow03IsFold() ensures RowIsFold(3) {}
  lemma TableRow04IsFold() ensures RowIsFold(4) {}
  lemma TableRow05IsFold() ensures RowIsFold(5) {}
  lemma TableRow06IsFold() ensures RowIsFold(6) {}
  lemma TableRow07IsFold() ensures RowIsFold(7) {}
  lemma TableRow08IsFold() ensures RowIsFold(8) {}
  lemma TableRow09IsFold() ensures RowIsFold(9) {}
  lemma TableRow10IsFold() ensures RowIsFold(10) {}
  lemma TableRow11IsFold() ensures RowIsFold(11) {}
  lemma TableRow12IsFold() ensures RowIsFold(12) {}
  lemma TableRow13IsFold() ensures RowIsFold(13) {}
  lemma TableRow14IsFold() ensures RowIsFold(14) {}
  lemma TableRow15IsFold() ensures RowIsFold(15) {}
  lemma TableRow16IsFold() ensures RowIsFold(16) {}
  lemma TableRow17IsFold() ensures RowIsFold(17) {}
  lemma TableRow18IsFold() ensures RowIsFold(18) {}
  lemma TableRow19IsFold() ensures RowIsFold(19) {}
  lemma TableRow20IsFold() ensures RowIsFold(20) {}
  lemma TableRow21IsFold() ensures RowIsFold(21) {}
  lemma TableRow22IsFold() ensures RowIsFold(22) {}
  lemma TableRow23IsFold() ensures RowIsFold(23) {}
  lemma TableRow24IsFold() ensures RowIsFold(24) {}
  lemma TableRow25IsFold() ensures RowIsFold(25) {}
  lemma TableRow26IsFold() ensures RowIsFold(26) {}
  lemma TableRow27IsFold() ensures RowIsFold(27) {}
  lemma TableRow28IsFold() ensures RowIsFold(28) {}
  lemma TableRow29IsFold() ensures RowIsFold(29) {}
  lemma TableRow30IsFold() ensures RowIsFold(30) {}
  lemma TableRow31IsFold() ensures RowIsFold(31) {}

  /** Row `r` holds register values. */
  lemma RowHoldsRegister(r: bv8)
    requires r < 32
    ensures RowIsRegister(r)
  {
    if r == 0 {
      TableRow00IsRegister();
    } else if r == 1 {
      TableRow01IsRegister();
    } else if r == 2 {
      TableRow02IsRegister();
    } else if r == 3 {
      TableRow03IsRegister();
    } else if r == 4 {
      TableRow04IsRegister();
    } else if r == 5 {
      TableRow05IsRegister();
    } else if r == 6 {
      TableRow06IsRegister();
    } else if r == 7 {
      TableRow07IsRegister();
    } else if r == 8 {
      TableRow08IsRegister();
    } else if r == 9 {
      TableRow09IsRegister();
    } else if r == 10 {
      TableRow10IsRegister();
    } else if r == 11 {
      TableRow11IsRegister();
    } else if r == 12 {
      TableRow12IsRegister();
    } else if r == 13 {
      TableRow13IsRegister();
    } else if r == 14 {
      TableRow14IsRegister();
    } else if r == 15 {
      TableRow15IsRegister();
    } else if r == 16 {
      TableRow16IsRegister();
    } else if r == 17 {
      TableRow17IsRegister();
    } else if r == 18 {
      TableRow18IsRegister();
    } else if r == 19 {
      TableRow19IsRegister();
    } else if r == 20 {
      TableRow20IsRegister();
    } else if r == 21 {
      TableRow21IsRegister();
    } else if r == 22 {
      TableRow22IsRegister();
    } else if r == 23 {
      TableRow23IsRegister();
    } else if r == 24 {
      TableRow24IsRegister();
    } else if r == 25 {
      TableRow25IsRegister();
    } else if r == 26 {
      TableRow26IsRegister();
    } else if r == 27 {
      TableRow27IsRegister();
    } else if r == 28 {
      TableRow28IsRegister();
    } else if r == 29 {
      TableRow29IsRegister();
    } else if r == 30 {
      TableRow30IsRegister();
    } else {
      TableRow31IsRegister();
    }
  }

  /** Row `r` holds parity-fold values. */
  lemma RowHoldsFold(r: bv8)
    requires r < 32
    ensures RowIsFold(r)
  {
    if r == 0 {
      TableRow00IsFold();
    } else if r == 1 {
      TableRow01IsFold();
    } else if r == 2 {
      TableRow02IsFold();
    } else if r == 3 {
      TableRow03IsFold();
    } else if r == 4 {
      TableRow04IsFold();
    } else if r == 5 {
      TableRow05IsFold();
    } else if r == 6 {
      TableRow06IsFold();
    } else if r == 7 {
      TableRow07IsFold();
    } else if r == 8 {
      TableRow08IsFold();
    } else if r == 9 {
      TableRow09IsFold();
    } else if r == 10 {
      TableRow10IsFold();
    } else if r == 11 {
      TableRow11IsFold();
    } else if r == 12 {
      TableRow12IsFold();
    } else if r == 13 {
      TableRow13IsFold();
    } else if r == 14 {
      TableRow14IsFold();
    } else if r == 15 {
      TableRow15IsFold();
    } else if r == 16 {
      TableRow16IsFold();
    } else if r == 17 {
      TableRow17IsFold();
    } else if r == 18 {
      TableRow18IsFold();
    } else if r == 19 {
      TableRow19IsFold();
    } else if r == 20 {
      TableRow20IsFold();
    } else if r == 21 {
      TableRow21IsFold();
    } else if r == 22 {
      TableRow22IsFold();
    } else if r == 23 {
      TableRow23IsFold();
    } else if r == 24 {
      TableRow24IsFold();
    } else if r == 25 {
      TableRow25IsFold();
    } else if r == 26 {
      TableRow26IsFold();
    } else if r == 27 {
      TableRow27IsFold();
    } else if r == 28 {
      TableRow28IsFold();
    } else if r == 29 {
      TableRow29IsFold();
    } else if r == 30 {
      TableRow30IsFold();
    } else {
      TableRow31IsFold();
    }
  }

  /** Every table entry equals the shift-register value of `i << 8`. */
  lemma TableEntryIsRegister(i: bv8)
    ensures TableEntry(i) == RegisterEntry(i)
  {
    RowHoldsRegister(i >> 3);
  }

  /** Every table entry equals what the parity fold produces for its index. */
  lemma TableEntryIsFold(i: bv8)
    ensures FoldEntry(i) == TableEntry(i)
  {
    RowHoldsFold(i >> 3);
  }
}

=== FILE: framing.dfy ===
/**
  The frames the host writes (`__send_command`, xdl.py:112-127): an ordinary
  frame is STX, the command, ETX and the big-endian command checksum of the
  command and ETX; with `exclude_checksum` it is STX and the command alone.
  `Unframe` is the reference decoder defined by this model, the inverse
  of `Encode`; the source itself never checks a frame's checksum.
 */
module Framing {
  import opened Wrappers
  import opened Bytes
  import opened Checksum
  import opened Crc16

  /** The checksum sealing an ordinary frame, `__checksum(cmd + b'\x03')`
      (xdl.py:120). It is CRC-16/BUYPASS of the command and the ETX. */
  function FrameChecksum(cmd: seq<byte>): (c: nat)
    ensures c < 0x1_0000
    ensures c == Crc16Buypass(cmd + [ETX]) as int
  {
    CommandChecksum(cmd + [ETX], 0) as int
  }

  /** The bytes `__send_command(cmd)` writes (xdl.py:118-127): four bytes
      longer than the command, opened by STX, with ETX third from the end and
      a trailer holding the CRC of everything between STX and the trailer. */
  function Encode(cmd: seq<byte>): (w: seq<byte>)
    ensures |w| == |cmd| + 4
    ensures w[0] == STX && w[|w| - 3] == ETX
    ensures w[1..|w| - 3] == cmd
    ensures BeValue(w[|w| - 2..]) == Crc16Buypass(w[1..|w| - 2]) as int
  {
    var w := [STX] + cmd + [ETX] + Be16(FrameChecksum(cmd));
    assert w[1..|w| - 2] == cmd + [ETX];
    assert w[|w| - 2..] == Be16(FrameChecksum(cmd));
    w
  }

  /** The bytes `__send_command(cmd, exclude_checksum=True)` writes
      (xdl.py:115-116, 123-127): STX and the command, nothing after it. */
  function EncodeBare(cmd: seq<byte>): (w: seq<byte>)
    ensures |w| == |cmd| + 1
    ensures w[0] == STX && w[1..] == cmd
  {
    [STX] + cmd
  }

  /** The bytes one `__send_command` call writes, for either setting of
      `exclude_checksum`. */
  function Wire(cmd: seq<byte>, excludeChecksum: bool): (w: seq<byte>)
    ensures |w| > 0 && w[0] == STX
    ensures excludeChecksum ==> w[1..] == cmd
    ensures !excludeChecksum ==> Unframe(w) == Some(cmd)
  {
    if excludeChecksum then EncodeBare(cmd)
    else
      UnframeEncode(cmd);
      Encode(cmd)
  }

  /** The reference decoder of an ordinary frame defined by this model: the
      command it carries when the frame is well formed and its checksum
      matches, else None. */
  function Unframe(w: seq<byte>): (r: Option<seq<byte>>)
  {
    if |w| < 4 || w[0] != STX || w[|w| - 3] != ETX then None
    else if BeValue(w[|w| - 2..]) != FrameChecksum(w[1..|w| - 3]) then None
    else Some(w[1..|w| - 3])
  }

  /** Every encoded frame is accepted and yields its command back. */
  lemma UnframeEncode(cmd: seq<byte>)
    ensures Unframe(Encode(cmd)) == Some(cmd)
  {
    var w := Encode(cmd);
    assert w[1..|w| - 2] == w[1..|w| - 3] + [ETX];
  }

  /** Every accepted frame is exactly the encoding of what it yields, so no
      two commands share a frame and no frame is accepted in two readings. */
  lemma EncodeUnframe(w: seq<byte>)
    ensures Unframe(w).Some? ==> Encode(Unframe(w).value) == w
  {
    if Unframe(w).Some? {
      var cmd := w[1..|w| - 3];
      var trailer := w[|w| - 2..];
      Be16OfValue(trailer);
      assert Be16(FrameChecksum(cmd)) == trailer;
      assert w == [STX] + cmd + [ETX] + trailer;
    }
  }

  /** Distinct commands are written as distinct frames. */
  lemma EncodeInjective(a: seq<byte>, b: seq<byte>)
    ensures Encode(a) == Encode(b) <==> a == b
  {
    if Encode(a) == Encode(b) {
      UnframeEncode(a);
      UnframeEncode(b);
    }
  }
}

=== FILE: parity.dfy ===
/**
  The bit arithmetic inside the command checksum's loop (xdl.py:25-29): the
  parity fold of the loop variable and the three shifted copies of it that
  are XORed into the accumulator. `bv16` arithmetic truncates exactly as the
  source's `& 0xFFFF` masks do.
 */
module Parity {
  /** The three XOR-shift updates of xdl.py:26-28: afterwards bit k holds the
      parity of bits k and above of the input. */
  function ParityFold(x: bv16): bv16
  {
    var x := x ^ (x >> 4);
    var x := x ^ (x >> 2);
    x ^ (x >> 1)
  }

  /** The loop variable `x` after its four updates (xdl.py:25-28). Since the
      accumulator never exceeds 16 bits, `x` stays a byte throughout. */
  function Folded(acc: bv16, b: bv16): (x: bv16)
    requires b < 0x100
    ensures x < 0x100
  {
    var x := b ^ (acc >> 8);
    assert x < 0x100;
    ParityFold(x)
  }

  /** The three masked terms that xdl.py:29 XORs into the shifted accumulator. */
  function Spread(x: bv16): bv16
  {
    (x << 15) ^ (x << 2) ^ x
  }
}

=== FILE: reader.dfy ===
/**
  The host's reply reader, `__get_response` (xdl.py:76-108), as a pure
  function of the bytes that arrive before the deadline. Outside a frame a
  lone ENQ or ACK is answered at once, STX opens a frame and anything else is
  dropped; inside a frame every byte is kept, and the frame is complete as
  soon as it holds at least four bytes with ETX third from the end. Running
  out of bytes is the timeout, for which the source returns None. The frame's
  checksum is not checked (xdl.py:105-107).
 */
module Reader {
  import opened Bytes
  import opened Framing

  /** What `__get_response` returns: a one-byte signal, a frame, or None. */
  datatype Response = Signal(signal: byte) | Frame(frame: seq<byte>) | TimedOut

  /** The bytes returned alone outside a frame (xdl.py:90-91). */
  predicate IsSignal(b: byte)
  {
    b == ENQ || b == ACK
  }

  /** A byte the reader drops while no frame is open (xdl.py:98-99). */
  predicate IsNoise(b: byte)
  {
    b != STX && !IsSignal(b)
  }

  /** Bytes that all get dropped while no frame is open. */
  predicate Quiet(s: seq<byte>)
  {
    forall i :: 0 <= i < |s| ==> IsNoise(s[i])
  }

  /** The completion test of xdl.py:104. */
  predicate Complete(buf: seq<byte>)
  {
    |buf| >= 4 && buf[|buf| - 3] == ETX
  }

  /** An opened frame that has not completed: STX, and no ETX yet that has
      two bytes after it. */
  predicate Unfinished(s: seq<byte>)
  {
    |s| > 0 && s[0] == STX && forall i :: 1 <= i < |s| - 2 ==> s[i] != ETX
  }

  /** A frame as the reader delimits one: STX, bytes other than ETX, ETX and
      two further bytes (the checksum, whatever its value). */
  predicate IsFrame(f: seq<byte>)
  {
    |f| >= 4 && f[0] == STX && f[|f| - 3] == ETX && forall i :: 1 <= i < |f| - 3 ==> f[i] != ETX
  }

  /** `__get_response()` over the bytes `input` that arrive before the
      deadline. A signal is ENQ or ACK; a frame is delimited as `IsFrame`
      says. */
  function GetResponse(input: seq<byte>): (r: Response)
    ensures r.Signal? ==> IsSignal(r.signal)
    ensures r.Frame? ==> IsFrame(r.frame)
  {
    Await(input)
  }

  /** The reader with no frame open (xdl.py:88-99). */
  function Await(input: seq<byte>): (r: Response)
    ensures r.Signal? ==> IsSignal(r.signal)
    ensures r.Frame? ==> IsFrame(r.frame)
  {
    if |input| == 0 then TimedOut
    else if IsSignal(input[0]) then Signal(input[0])
    else if input[0] == STX then Collect(input[1..], [STX])
    else Await(input[1..])
  }

  /** The reader with the frame `buf` open (xdl.py:100-108). It never answers
      with a signal; a frame it returns extends `buf` by a prefix of the
      input, and when it times out, all it saw still leaves the frame open. */
  function Collect(input: seq<byte>, buf: seq<byte>): (r: Response)
    requires Unfinished(buf)
    ensures !r.Signal?
    ensures r.Frame? ==> IsFrame(r.frame) && r.frame <= buf + input
    ensures r.TimedOut? ==> Unfinished(buf + input)
    decreases |input|
  {
    if |input| == 0 then
      assert buf + input == buf;
      TimedOut
    else
      var next := buf + [input[0]];
      assert buf + input == next + input[1..];
      if Complete(next) then Frame(next) else Collect(input[1..], next)
  }

  // ---------------------------------------------------------------------
  // The reader described by where its answer sits in the input
  // ---------------------------------------------------------------------

  /** Dropped bytes in front of the input change nothing. */
  lemma {:induction false} QuietIsSkipped(pre: seq<byte>, s: seq<byte>)
    requires Quiet(pre)
    ensures GetResponse(pre + s) == GetResponse(s)
    decreases |pre|
  {
    if |pre| > 0 {
      assert (pre + s)[0] == pre[0];
      assert (pre + s)[1..] == pre[1..] + s;
      QuietIsSkipped(pre[1..], s);
    } else {
      assert pre + s == s;
    }
  }

  /** Input made only of dropped bytes times out. */
  lemma QuietTimesOut(s: seq<byte>)
    requires Quiet(s)
    ensures GetResponse(s) == TimedOut
  {
    QuietIsSkipped(s, []);
    assert s + [] == s;
  }

  /** Once a frame is open, the rest of a frame is collected and returned,
      whatever follows it. */
  lemma {:induction false} CollectFinds(f: seq<byte>, k: nat, s: seq<byte>)
    requires IsFrame(f) && 1 <= k < |f|
    ensures Unfinished(f[..k])
    ensures Collect(f[k..] + s, f[..k]) == Frame(f)
    decreases |f| - k
  {
    hide *;
    FramePrefix(f, k);
    var input := f[k..] + s;
    assert input[0] == f[k] && input[1..] == f[k + 1..] + s;
    CollectUnfolds(input, f[..k]);
    if k + 1 < |f| {
      CollectFinds(f, k + 1, s);
    }
  }

  /** Every proper prefix of a frame, from STX on, leaves the frame open, and
      the frame completes only at its full length. */
  lemma FramePrefix(f: seq<byte>, k: nat)
    requires IsFrame(f) && 1 <= k < |f|
    ensures Unfinished(f[..k])
    ensures f[..k] + [f[k]] == f[..k + 1]
    ensures Complete(f[..k + 1]) <==> k + 1 == |f|
  {
    assert f[..|f|] == f;
    if k + 1 < |f| && k + 1 >= 4 {
      assert f[..k + 1][k - 2] == f[k - 2];
    }
  }

  /** One byte more for an open frame, as the definition has it. */
  lemma CollectUnfolds(input: seq<byte>, buf: seq<byte>)
    requires Unfinished(buf) && |input| > 0
    ensures Collect(input, buf) ==
      if Complete(buf + [input[0]]) then Frame(buf + [input[0]]) else Collect(input[1..], buf + [input[0]])
  {
  }

  /** A frame at the head of the input is returned whole. */
  lemma FrameAnswers(f: seq<byte>, s: seq<byte>)
    requires IsFrame(f)
    ensures GetResponse(f + s) == Frame(f)
  {
    CollectFinds(f, 1, s);
    assert (f + s)[1..] == f[1..] + s;
    assert f[..1] == [STX];
  }

  /** An open frame that the input never completes times out. */
  lemma UnfinishedTimesOut(s: seq<byte>)
    requires Unfinished(s)
    ensures GetResponse(s) == TimedOut
  {
    assert [STX] + s[1..] == s;
    CollectStaysOpen(s[1..], [STX]);
  }

  /** A frame that stays open over all its input times out. */
  lemma {:induction false} CollectStaysOpen(input: seq<byte>, buf: seq<byte>)
    requires Unfinished(buf) && Unfinished(buf + input)
    ensures Collect(input, buf) == TimedOut
    decreases |input|
  {
    if |input| > 0 {
      var next := buf + [input[0]];
      assert buf + input == next + input[1..];
      assert (buf + input)[..|next|] == next;
      CollectStaysOpen(input[1..], next);
    }
  }

  /** The input is all dropped bytes, or there is a first byte the reader
      acts on. */
  lemma {:induction false} FirstMarker(input: seq<byte>)
    ensures Quiet(input) || exists k :: 0 <= k < |input| && Quiet(input[..k]) && !IsNoise(input[k])
  {
    if |input| > 0 {
      if !IsNoise(input[0]) {
        assert Quiet(input[..0]);
      } else {
        FirstMarker(input[1..]);
        if !Quiet(input[1..]) {
          var k :| 0 <= k < |input[1..]| && Quiet(input[1..][..k]) && !IsNoise(input[1..][k]);
          assert input[..k + 1] == [input[0]] + input[1..][..k];
          assert Quiet(input[..k + 1]);
        }
      }
    }
  }

  /** The reader answers as the first byte it acts on dictates. */
  lemma AnswerAtMarker(input: seq<byte>, k: nat)
    requires k < |input| && Quiet(input[..k]) && !IsNoise(input[k])
    ensures IsSignal(input[k]) ==> GetResponse(input) == Signal(input[k])
    ensures input[k] == STX ==> GetResponse(input) == Collect(input[k + 1..], [STX])
  {
    assert input == input[..k] + input[k..];
    QuietIsSkipped(input[..k], input[k..]);
    assert input[k..][1..] == input[k + 1..];
  }

  /** The reader returns the signal `b` exactly when `b` is ENQ or ACK and
      is the first byte after nothing but dropped bytes. */
  lemma SignalIff(input: seq<byte>, b: byte)
    ensures GetResponse(input) == Signal(b) <==>
      exists k :: 0 <= k < |input| && Quiet(input[..k]) && input[k] == b && IsSignal(b)
  {
    FirstMarker(input);
    if Quiet(input) {
      QuietTimesOut(input);
    } else {
      var k :| 0 <= k < |input| && Quiet(input[..k]) && !IsNoise(input[k]);
      AnswerAtMarker(input, k);
      forall j | 0 <= j < |input| && Quiet(input[..j]) && IsSignal(input[j])
        ensures j == k
      {
        SameMarker(input, j, k);
      }
    }
  }

  /** Two bytes that each follow only dropped bytes and are not dropped
      themselves are the same byte. */
  lemma SameMarker(input: seq<byte>, j: nat, k: nat)
    requires j < |input| && Quiet(input[..j]) && !IsNoise(input[j])
    requires k < |input| && Quiet(input[..k]) && !IsNoise(input[k])
    ensures j == k
  {
    if j < k {
      QuietBefore(input, j, k);
    } else if k < j {
      QuietBefore(input, k, j);
    }
  }

  /** A byte inside a dropped prefix is dropped. */
  lemma QuietBefore(input: seq<byte>, j: nat, k: nat)
    requires j < k <= |input| && Quiet(input[..k])
    ensures IsNoise(input[j])
  {
    assert input[..k][j] == input[j];
  }

  /** A frame that starts right after dropped bytes is what the reader returns. */
  lemma FrameAfterQuiet(input: seq<byte>, k: nat, f: seq<byte>)
    requires k + |f| <= |input| && Quiet(input[..k]) && input[k..k + |f|] == f && IsFrame(f)
    ensures GetResponse(input) == Frame(f)
  {
    assert input == input[..k] + (f + input[k + |f|..]);
    QuietIsSkipped(input[..k], f + input[k + |f|..]);
    FrameAnswers(f, input[k + |f|..]);
  }

  /** A frame the reader returns starts right after dropped bytes. */
  lemma FrameLocated(input: seq<byte>, f: seq<byte>)
    requires GetResponse(input) == Frame(f)
    ensures exists k :: 0 <= k && k + |f| <= |input| && Quiet(input[..k]) && input[k..k + |f|] == f && IsFrame(f)
  {
    FirstMarker(input);
    if Quiet(input) {
      QuietTimesOut(input);
    } else {
      var m :| 0 <= m < |input| && Quiet(input[..m]) && !IsNoise(input[m]);
      AnswerAtMarker(input, m);
      assert input[m] == STX;
      assert [STX] + input[m + 1..] == input[m..];
      assert input[m..m + |f|] == f;
    }
  }

  /** The reader returns the frame `f` exactly when `f` is a frame that
      starts right after nothing but dropped bytes. */
  lemma FrameIff(input: seq<byte>, f: seq<byte>)
    ensures GetResponse(input) == Frame(f) <==>
      exists k :: 0 <= k && k + |f| <= |input| && Quiet(input[..k]) && input[k..k + |f|] == f && IsFrame(f)
  {
    if GetResponse(input) == Frame(f) {
      FrameLocated(input, f);
    }
    forall k | 0 <= k && k + |f| <= |input| && Quiet(input[..k]) && input[k..k + |f|] == f && IsFrame(f)
      ensures GetResponse(input) == Frame(f)
    {
      FrameAfterQuiet(input, k, f);
    }
  }

  /** The reader times out exactly when every byte is dropped, or a frame is
      opened after nothing but dropped bytes and never completes. */
  lemma TimedOutIff(input: seq<byte>)
    ensures GetResponse(input) == TimedOut <==>
      Quiet(input) || exists k :: 0 <= k < |input| && Quiet(input[..k]) && Unfinished(input[k..])
  {
    FirstMarker(input);
    if Quiet(input) {
      QuietTimesOut(input);
    } else {
      var m :| 0 <= m < |input| && Quiet(input[..m]) && !IsNoise(input[m]);
      AnswerAtMarker(input, m);
      if input[m] == STX {
        assert [STX] + input[m + 1..] == input[m..];
      }
      forall k | 0 <= k < |input| && Quiet(input[..k]) && Unfinished(input[k..])
        ensures GetResponse(input) == TimedOut
      {
        assert input == input[..k] + input[k..];
        QuietIsSkipped(input[..k], input[k..]);
        UnfinishedTimesOut(input[k..]);
      }
    }
  }

  /** A frame is exactly a byte string opened by STX that completes at its
      full length and at no shorter length. */
  lemma FrameIsFirstCompletion(f: seq<byte>)
    ensures IsFrame(f) <==>
      |f| > 0 && f[0] == STX && Complete(f) && forall n :: 4 <= n < |f| ==> !Complete(f[..n])
  {
    if |f| > 0 && f[0] == STX && Complete(f) && forall n :: 4 <= n < |f| ==> !Complete(f[..n]) {
      forall i | 1 <= i < |f| - 3
        ensures f[i] != ETX
      {
        if i >= 1 && i + 3 >= 4 {
          assert !Complete(f[..i + 3]);
        }
      }
    }
    if IsFrame(f) {
      forall n | 4 <= n < |f|
        ensures !Complete(f[..n])
      {
        assert f[..n][n - 3] == f[n - 3];
      }
    }
  }

  /** Reading back an ordinary frame the host could have written: the whole
      frame comes back exactly when the command holds no ETX; otherwise the
      reader stops at the command's first ETX and two bytes after it. */
  lemma EncodedFrameReadBack(cmd: seq<byte>, s: seq<byte>)
    ensures GetResponse(Encode(cmd) + s) == Frame(Encode(cmd)) <==>
      forall i :: 0 <= i < |cmd| ==> cmd[i] != ETX
  {
    var w := Encode(cmd);
    if forall i :: 0 <= i < |cmd| ==> cmd[i] != ETX {
      forall i | 1 <= i < |w| - 3
        ensures w[i] != ETX
      {
        assert w[i] == w[1..|w| - 3][i - 1];
      }
      FrameAnswers(w, s);
    }
    if GetResponse(w + s) == Frame(w) {
      forall i | 0 <= i < |cmd|
        ensures cmd[i] != ETX
      {
        assert cmd[i] == w[i + 1];
      }
    }
  }
}

=== FILE: session.dfy ===
/**
  The session operations of the `XDL` class (xdl.py:136-296) as state
  transitions: each takes the session state and its inputs and yields the
  new state, the byte strings written to the serial port (one per
  `ser.write` call) and what the Python method returns. Replies that the
  source reads and ignores are not inputs; the handshake's replies are.
 */
module Session {
  import opened Wrappers
  import opened Bytes
  import opened Crc16
  import opened Framing
  import opened Reader
  import opened Commands
  import opened Upload

  /** `self.connected` and `self.connection_string` (xdl.py:13, 166-167);
      the latter is unset until the first successful handshake. */
  datatype Session = Session(connected: bool, identity: Option<seq<byte>>)

  /** What a method returns: `False`, `None`, the connection string, or an
      exception. `StillConnecting` marks a handshake loop that has not
      ended within the modelled attempts. */
  datatype Outcome =
    | ReturnedFalse
    | ReturnedNone
    | ReturnedIdentity(identity: seq<byte>)
    | Raised
    | StillConnecting

  /** The result of one operation. */
  datatype Step = Step(session: Session, writes: seq<seq<byte>>, outcome: Outcome)

  /** The state right after construction (xdl.py:13). */
  const Initial: Session := Session(false, None)

  /** The tag a terminal's handshake reply carries in bytes 1 to 3 (xdl.py:162). */
  const Vfi: seq<byte> := ['V' as byte, 'F' as byte, 'I' as byte]

  /** The message that clears the display before an upload (xdl.py:233). */
  const ClearScreen: seq<byte> := ['-' as byte, 0x0C]

  // ---------------------------------------------------------------------
  // The handshake (xdl.py:136-174)
  // ---------------------------------------------------------------------

  /** How one turn of the handshake loop ends. */
  datatype Attempt = Retry | Reject | Accept(identity: seq<byte>)

  /** One turn of the handshake loop (xdl.py:156-172), given the bytes that
      arrive after the probe. Nothing waiting, or a reply the reader gives
      up on, means another turn. A signal or a frame not tagged "VFI" is
      rejected. A tagged frame is accepted, and the connection string is the
      frame without its STX, ETX and checksum. */
  function Handshake(arrived: seq<byte>): (a: Attempt)
    ensures a.Accept? ==> |a.identity| >= 3 && a.identity[..3] == Vfi
    ensures a.Accept? ==> forall i :: 0 <= i < |a.identity| ==> a.identity[i] != ETX
  {
    if |arrived| == 0 then Retry
    else
      match GetResponse(arrived)
      case TimedOut => Retry
      case Signal(_) => Reject
      case Frame(f) =>
        if f[1..4] == Vfi then
          assert f[1] != ETX && f[2] != ETX && f[3] != ETX;
          var id := f[1..|f| - 3];
          assert forall i :: 0 <= i < |id| ==> id[i] == f[i + 1];
          Accept(id)
        else Reject
  }

  /** The handshake loop over the bytes that arrive after each probe. Every
      turn writes ENQ; acceptance writes ACK and connects. When the
      attempts run out the loop is still running. */
  function ConnectLoop(s: Session, arrivals: seq<seq<byte>>): (st: Step)
    requires !s.connected
    ensures st.session.connected <==> st.outcome.ReturnedIdentity?
    ensures st.session.connected ==> st.session.identity == Some(st.outcome.identity)
    ensures !st.session.connected ==> st.session == s
    ensures st.outcome.ReturnedFalse? || st.outcome.ReturnedIdentity? || st.outcome.StillConnecting?
    ensures st.session.connected ==> |st.writes| >= 2 && st.writes[|st.writes| - 1] == [ACK]
    ensures forall i :: 0 <= i < |st.writes| - (if st.session.connected then 1 else 0) ==> st.writes[i] == [ENQ]
    ensures |st.writes| <= |arrivals| + (if st.session.connected then 1 else 0)
    ensures st.outcome.StillConnecting? <==> forall i :: 0 <= i < |arrivals| ==> Handshake(arrivals[i]) == Retry
    decreases |arrivals|
  {
    if |arrivals| == 0 then Step(s, [], StillConnecting)
    else
      match Handshake(arrivals[0])
      case Retry =>
        var rest := ConnectLoop(s, arrivals[1..]);
        assert forall i :: 1 <= i < |arrivals| ==> arrivals[1..][i - 1] == arrivals[i];
        Step(rest.session, [[ENQ]] + rest.writes, rest.outcome)
      case Reject => Step(s, [[ENQ]], ReturnedFalse)
      case Accept(id) => Step(Session(true, Some(id)), [[ENQ], [ACK]], ReturnedIdentity(id))
  }

  /** `connect()`: refused while connected, else the handshake loop. */
  function Connect(s: Session, arrivals: seq<seq<byte>>): (st: Step)
    ensures s.connected ==> st == Step(s, [], ReturnedFalse)
    ensures !s.connected ==> (st.session.connected <==> st.outcome.ReturnedIdentity?)
  {
    if s.connected then Step(s, [], ReturnedFalse) else ConnectLoop(s, arrivals)
  }

  // ---------------------------------------------------------------------
  // The commands of a connected session
  // ---------------------------------------------------------------------

  /** The reference decoder for the writes of a session, defined by this
      model (the terminal's own parser is not part of the source): a write
      whose second byte is STX is a "W" frame, accepted when its trailer is
      the CRC-16/BUYPASS of its payload; any other write is an ordinary frame
      checked by `Unframe`. Either way the payload is then read by `Parse`. */
  function Decoded(w: seq<byte>): Option<Command>
  {
    if |w| >= 4 && w[1] == STX then
      if BeValue(w[|w| - 2..]) == Crc16Buypass(w[2..|w| - 2]) as int then Parse(w[2..|w| - 2]) else None
    else
      match Unframe(w)
      case None => None
      case Some(p) => Parse(p)
  }

  /** The frame `__send_command` writes for a command other than "W". */
  function CommandWire(c: Command): (w: seq<byte>)
    requires Buildable(c) && !c.Write?
    ensures Unframe(w) == Some(Payload(c))
    ensures Recoverable(c) ==> Decoded(w) == Some(c)
  {
    var w := Wire(Payload(c), false);
    assert w == Encode(Payload(c));
    UnframeEncode(Payload(c));
    assert Recoverable(c) ==> Parse(Payload(c)) == Some(c) by {
      if Recoverable(c) {
        ParsePayload(c);
      }
    }
    assert w[1] == Payload(c)[0] == Opcode(c) != STX;
    w
  }

  /** `message(msg)` with a byte string (xdl.py:176-196). */
  function SendMessage(s: Session, msg: seq<byte>): (st: Step)
    ensures st.session == s
    ensures !s.connected ==> st.writes == [] && st.outcome == ReturnedFalse
    ensures s.connected ==> st.outcome == ReturnedNone
    ensures s.connected ==> |st.writes| == 1 && Unframe(st.writes[0]) == Some([MessageOp] + msg)
    ensures s.connected ==> Decoded(st.writes[0]) == Some(Message(msg))
  {
    if !s.connected then Step(s, [], ReturnedFalse)
    else Step(s, [CommandWire(Message(msg))], ReturnedNone)
  }

  /** `set_config_var(var, val)` (xdl.py:198-207). The reference decoder
      reads the variable back unless its name holds the separator. */
  function SetConfigVar(s: Session, name: seq<byte>, value: seq<byte>): (st: Step)
    ensures st.session == s
    ensures !s.connected ==> st.writes == [] && st.outcome == ReturnedFalse
    ensures s.connected ==> st.outcome == ReturnedNone
    ensures s.connected ==> |st.writes| == 1 && Unframe(st.writes[0]) == Some([SetVarOp] + name + [FS] + value)
    ensures s.connected && (forall i :: 0 <= i < |name| ==> name[i] != FS) ==>
      Decoded(st.writes[0]) == Some(SetVar(name, value))
  {
    if !s.connected then Step(s, [], ReturnedFalse)
    else
      UnframeEncode(Payload(SetVar(name, value)));
      Step(s, [CommandWire(SetVar(name, value))], ReturnedNone)
  }

  /** `stop()` (xdl.py:286-296): sends "S" and disconnects, whatever the
      terminal answers. */
  function StopSession(s: Session): (st: Step)
    ensures !st.session.connected
    ensures st.session.identity == s.identity
    ensures !s.connected ==> st.writes == [] && st.outcome == ReturnedFalse
    ensures s.connected ==> st.outcome == ReturnedNone
    ensures s.connected ==> |st.writes| == 1 && Unframe(st.writes[0]) == Some([StopOp])
    ensures s.connected ==> Decoded(st.writes[0]) == Some(Stop)
  {
    if !s.connected then Step(s, [], ReturnedFalse)
    else Step(s.(connected := false), [CommandWire(Stop)], ReturnedNone)
  }

  /** On a connected session, `message` and `stop` write exactly the bytes
      `__send_command` writes for their payloads (xdl.py:118-127): the
      session contracts pin the frame through `Unframe`, which accepts only
      what `Encode` writes. */
  lemma CommandsWriteFrames(s: Session, msg: seq<byte>)
    requires s.connected
    ensures SendMessage(s, msg).writes == [Encode([MessageOp] + msg)]
    ensures StopSession(s).writes == [Encode([StopOp])]
  {
    hide *;
    EncodeUnframe(SendMessage(s, msg).writes[0]);
    EncodeUnframe(StopSession(s).writes[0]);
  }

  /** A freshly constructed client (xdl.py:13) is not connected, so until
      `connect()` succeeds, `message`, `set_config_var`, `send_file` and
      `stop` each return False and write nothing, and `stop` keeps it
      disconnected. */
  lemma InitialRefusesCommands(msg: seq<byte>, name: seq<byte>, value: seq<byte>, code: bool, basename: seq<byte>, data: seq<byte>, bar: (nat, nat) -> seq<byte>)
    ensures SendMessage(Initial, msg) == Step(Initial, [], ReturnedFalse)
    ensures SetConfigVar(Initial, name, value) == Step(Initial, [], ReturnedFalse)
    ensures SendFile(Initial, code, basename, data, bar) == Step(Initial, [], ReturnedFalse)
    ensures StopSession(Initial) == Step(Initial, [], ReturnedFalse)
  {
  }

  /** `send_file(filename, code)` (xdl.py:211-284) for a file with contents
      `data` and base name `basename`: the "O" announcement, the clearing
      message, the chunk loop and, unless the loop raised, "C". */
  function SendFile(s: Session, code: bool, basename: seq<byte>, data: seq<byte>, bar: (nat, nat) -> seq<byte>): (st: Step)
    ensures st.session == s
    ensures !s.connected ==> st.writes == [] && st.outcome == ReturnedFalse
    ensures s.connected ==> (st.outcome == ReturnedNone <==> OffsetsFit(|data|))
    ensures s.connected ==> (st.outcome == Raised <==> !OffsetsFit(|data|))
  {
    if !s.connected then Step(s, [], ReturnedFalse)
    else
      var t := SendChunks(data, 0, 0, bar);
      SendChunksCompletes(data, bar);
      var head := [CommandWire(Open(code, basename)), CommandWire(Message(ClearScreen))];
      if t.completed then Step(s, head + t.writes + [CommandWire(Close)], ReturnedNone)
      else Step(s, head + t.writes, Raised)
  }

  // ---------------------------------------------------------------------
  // Properties of the session operations
  // ---------------------------------------------------------------------

  /** A turn that gets no usable reply only adds one probe in front of what
      the remaining turns do. */
  lemma ConnectRetries(s: Session, arrived: seq<byte>, arrivals: seq<seq<byte>>)
    requires !s.connected && Handshake(arrived) == Retry
    ensures Connect(s, [arrived] + arrivals).writes == [[ENQ]] + Connect(s, arrivals).writes
    ensures Connect(s, [arrived] + arrivals).session == Connect(s, arrivals).session
    ensures Connect(s, [arrived] + arrivals).outcome == Connect(s, arrivals).outcome
  {
    assert ([arrived] + arrivals)[1..] == arrivals;
  }

  /** A handshake turn retries exactly when nothing arrived or the reader
      timed out, and rejects exactly on a signal or an untagged frame. */
  lemma HandshakeCases(arrived: seq<byte>)
    ensures Handshake(arrived) == Retry <==> |arrived| == 0 || GetResponse(arrived) == TimedOut
    ensures Handshake(arrived) == Reject <==>
      |arrived| > 0 && (GetResponse(arrived).Signal? || (GetResponse(arrived).Frame? && GetResponse(arrived).frame[1..4] != Vfi))
  {
  }

  /** A terminal that answers the probe, after line noise, with an ordinary
      frame whose command is tagged "VFI" and free of ETX is accepted, and
      the connection string is that command. One ENQ and one ACK are
      written and the session is connected, whether it never was or was
      stopped before. */
  lemma HandshakeReadsIdentity(s: Session, noise: seq<byte>, id: seq<byte>, rest: seq<byte>, arrivals: seq<seq<byte>>)
    requires !s.connected
    requires Quiet(noise)
    requires |id| >= 3 && id[..3] == Vfi && forall i :: 0 <= i < |id| ==> id[i] != ETX
    ensures Handshake(noise + Encode(id) + rest) == Accept(id)
    ensures Connect(s, [noise + Encode(id) + rest] + arrivals)
      == Step(Session(true, Some(id)), [[ENQ], [ACK]], ReturnedIdentity(id))
  {
    TaggedFrameAccepted(noise, id, rest);
    AcceptConnects(s, noise + Encode(id) + rest, id, arrivals);
  }

  /** The handshake turn of `HandshakeReadsIdentity`. */
  lemma TaggedFrameAccepted(noise: seq<byte>, id: seq<byte>, rest: seq<byte>)
    requires Quiet(noise)
    requires |id| >= 3 && id[..3] == Vfi && forall i :: 0 <= i < |id| ==> id[i] != ETX
    ensures Handshake(noise + Encode(id) + rest) == Accept(id)
  {
    hide *;
    var w := Encode(id);
    assert noise + w + rest == noise + (w + rest);
    QuietIsSkipped(noise, w + rest);
    EncodedFrameReadBack(id, rest);
    assert w[1..4] == id[..3];
    assert w[1..|w| - 3] == id;
    TaggedFrameHandshake(noise + w + rest, w);
  }

  /** A turn whose reply is a frame tagged "VFI" accepts the frame's body. */
  lemma TaggedFrameHandshake(arrived: seq<byte>, f: seq<byte>)
    requires GetResponse(arrived) == Frame(f) && f[1..4] == Vfi
    ensures Handshake(arrived) == Accept(f[1..|f| - 3])
  {
  }

  /** An accepting first turn ends the handshake loop with one ENQ and one
      ACK. */
  lemma AcceptConnects(s: Session, arrived: seq<byte>, id: seq<byte>, arrivals: seq<seq<byte>>)
    requires !s.connected && Handshake(arrived) == Accept(id)
    ensures Connect(s, [arrived] + arrivals)
      == Step(Session(true, Some(id)), [[ENQ], [ACK]], ReturnedIdentity(id))
  {
    assert ([arrived] + arrivals)[0] == arrived;
  }

  /** A turn that gets a signal, or a frame not tagged "VFI", ends
      `connect()` with False after one ENQ, leaving the session as it was. */
  lemma ConnectRejects(s: Session, arrived: seq<byte>, arrivals: seq<seq<byte>>)
    requires !s.connected && Handshake(arrived) == Reject
    ensures Connect(s, [arrived] + arrivals) == Step(s, [[ENQ]], ReturnedFalse)
  {
    assert ([arrived] + arrivals)[0] == arrived;
  }

  /** The writes of an upload on a connected session, when every offset
      fits: "O", the clearing "M", a progress "M" and a "W" per chunk in
      order, then "C". */
  lemma UploadWrites(s: Session, code: bool, basename: seq<byte>, data: seq<byte>, bar: (nat, nat) -> seq<byte>)
    requires s.connected && OffsetsFit(|data|)
    ensures var ws := SendFile(s, code, basename, data, bar).writes;
      ws == [CommandWire(Open(code, basename)), CommandWire(Message(ClearScreen))]
            + ExpectedWrites(data, bar) + [CommandWire(Close)]
  {
    SendChunksWrites(data, bar);
  }

  /** The command order of an upload as the reference decoder reads it: the file
      announcement, the clearing message, for each chunk k its progress
      message and the chunk at offset 1000k, and the end-of-file mark. */
  lemma UploadOrder(s: Session, code: bool, basename: seq<byte>, data: seq<byte>, bar: (nat, nat) -> seq<byte>)
    requires s.connected && OffsetsFit(|data|)
    ensures var ws := SendFile(s, code, basename, data, bar).writes;
      |ws| == 2 * ChunkCount(|data|) + 3
      && Decoded(ws[0]) == Some(Open(code, basename))
      && Decoded(ws[1]) == Some(Message(ClearScreen))
      && (forall k :: 0 <= k < ChunkCount(|data|) ==>
            Decoded(ws[2 * k + 2]) == Some(Message(ProgressText(bar(k * 1000, k))))
            && Decoded(ws[2 * k + 3]) == Some(Write(k * 1000, ChunkOf(data, k))))
      && Decoded(ws[|ws| - 1]) == Some(Close)
  {
    hide *;
    UploadWrites(s, code, basename, data, bar);
    var ws := SendFile(s, code, basename, data, bar).writes;
    var ex := ExpectedWrites(data, bar);
    FixedCommandsDecoded(code, basename);
    Bracketed(CommandWire(Open(code, basename)), CommandWire(Message(ClearScreen)), ex, CommandWire(Close), ws);
    forall k | 0 <= k < ChunkCount(|data|)
      ensures Decoded(ws[2 * k + 2]) == Some(Message(ProgressText(bar(k * 1000, k))))
      ensures Decoded(ws[2 * k + 3]) == Some(Write(k * 1000, ChunkOf(data, k)))
    {
      ExpectedDecoded(data, k, bar);
    }
  }

  /** The reference decoder reads the announcement, clearing message and
      end mark of an upload as those commands. */
  lemma FixedCommandsDecoded(code: bool, basename: seq<byte>)
    ensures Buildable(Open(code, basename)) && Buildable(Message(ClearScreen)) && Buildable(Close)
    ensures Decoded(CommandWire(Open(code, basename))) == Some(Open(code, basename))
    ensures Decoded(CommandWire(Message(ClearScreen))) == Some(Message(ClearScreen))
    ensures Decoded(CommandWire(Close)) == Some(Close)
  {
  }

  /** Indexing into the writes of an upload: two leading writes, the chunk
      loop's writes, one trailing write. */
  lemma Bracketed(a: seq<byte>, b: seq<byte>, ex: seq<seq<byte>>, c: seq<byte>, ws: seq<seq<byte>>)
    requires ws == [a, b] + ex + [c]
    ensures |ws| == |ex| + 3 && ws[0] == a && ws[1] == b && ws[|ws| - 1] == c
    ensures forall q :: 0 <= q < |ex| ==> ws[q + 2] == ex[q]
  {
  }

  /** The reference decoder reads chunk k's two expected writes as its
      progress message and its chunk. */
  lemma ExpectedDecoded(data: seq<byte>, k: nat, bar: (nat, nat) -> seq<byte>)
    requires OffsetsFit(|data|) && k < ChunkCount(|data|)
    ensures Decoded(ExpectedWrites(data, bar)[2 * k]) == Some(Message(ProgressText(bar(k * 1000, k))))
    ensures Decoded(ExpectedWrites(data, bar)[2 * k + 1]) == Some(Write(k * 1000, ChunkOf(data, k)))
  {
    ExpectedWritesAt(data, k, bar);
    ProgressDecoded(bar(k * 1000, k));
    WriteDecoded(k * 1000, ChunkOf(data, k));
  }

  /** The reference decoder reads a progress frame as its message. */
  lemma ProgressDecoded(bar: seq<byte>)
    ensures Decoded(ProgressWire(bar)) == Some(Message(ProgressText(bar)))
  {
    var c := Message(ProgressText(bar));
    assert ProgressWire(bar) == CommandWire(c);
  }

  /** The reference decoder reads a "W" frame as its chunk at its offset. */
  lemma WriteDecoded(offset: nat, chunk: seq<byte>)
    requires |chunk| <= ChunkSize && offset < 0x1_0000_0000
    ensures Decoded(WriteWire(offset, chunk)) == Some(Write(offset, chunk))
  {
  }
}

=== FILE: shift_register.dfy ===
/**
  The bit-serial, MSB-first shift register for the polynomial 0x8005
  (initial value 0, no reflection, no final XOR): the textbook definition of
  CRC-16/BUYPASS, against which both checksums of the protocol are measured.
  Its clock is linear over XOR, which is what makes a lookup table possible.
 */
module ShiftRegister {
  import opened Bytes

  const Poly: bv16 := 0x8005

  /** One clock of the MSB-first shift register. */
  function ShiftBit(reg: bv16): bv16
  {
    if reg & 0x8000 == 0 then reg << 1 else (reg << 1) ^ Poly
  }

  /** Eight clocks: one byte's worth. */
  function ShiftByte(reg: bv16): bv16
  {
    ShiftBit(ShiftBit(ShiftBit(ShiftBit(ShiftBit(ShiftBit(ShiftBit(ShiftBit(reg))))))))
  }

  /** Feeding one byte, most significant bit first, into the register. */
  function RegisterStep(reg: bv16, b: bv16): bv16
  {
    ShiftByte(reg ^ (b << 8))
  }

  /** The bit-serial CRC of `data` starting from register value `reg`. */
  function RegisterCrc(data: seq<byte>, reg: bv16): bv16
  {
    if |data| == 0 then reg else RegisterCrc(data[1..], RegisterStep(reg, data[0] as bv16))
  }

  // ---------------------------------------------------------------------
  // Linearity: what lets a table stand in for eight clocks
  // ---------------------------------------------------------------------

  /** One clock, spelled out per value of the top bit. */
  lemma ShiftBitCases(reg: bv16)
    ensures reg & 0x8000 == 0 ==> ShiftBit(reg) == reg << 1
    ensures reg & 0x8000 != 0 ==> ShiftBit(reg) == (reg << 1) ^ Poly
  {}

  /** The top bit of an XOR is the XOR of the top bits. */
  lemma XorTopBit(a: bv16, b: bv16)
    ensures (a ^ b) & 0x8000 == (a & 0x8000) ^ (b & 0x8000)
  {}

  /** Shifting left distributes over XOR, with or without the polynomial. */
  lemma XorShiftLeft(a: bv16, b: bv16)
    ensures (a << 1) ^ (b << 1) == (a ^ b) << 1
    ensures ((a << 1) ^ Poly) ^ (b << 1) == ((a ^ b) << 1) ^ Poly
    ensures (a << 1) ^ ((b << 1) ^ Poly) == ((a ^ b) << 1) ^ Poly
    ensures ((a << 1) ^ Poly) ^ ((b << 1) ^ Poly) == (a ^ b) << 1
  {}

  /** One register clock is linear over XOR. */
  lemma ShiftBitLinear(a: bv16, b: bv16)
    ensures ShiftBit(a ^ b) == ShiftBit(a) ^ ShiftBit(b)
  {
    ShiftBitCases(a);
    ShiftBitCases(b);
    ShiftBitCases(a ^ b);
    XorTopBit(a, b);
    XorShiftLeft(a, b);
    if a & 0x8000 == 0 {
      if b & 0x8000 == 0 {
        assert ShiftBit(a ^ b) == (a ^ b) << 1;
      } else {
        assert ShiftBit(a ^ b) == ((a ^ b) << 1) ^ Poly;
      }
    } else {
      if b & 0x8000 == 0 {
        assert ShiftBit(a ^ b) == ((a ^ b) << 1) ^ Poly;
      } else {
        assert ShiftBit(a ^ b) == (a ^ b) << 1;
      }
    }
  }

  /** `f` distributes over XOR. */
  ghost predicate Linear(f: bv16 -> bv16)
  {
    forall a: bv16, b: bv16 {:trigger f(a ^ b)} :: f(a ^ b) == f(a) ^ f(b)
  }

  /** One register clock is linear over XOR, for all arguments at once. */
  lemma ShiftBitIsLinear()
    ensures Linear(ShiftBit)
  {
    forall a: bv16, b: bv16
      ensures ShiftBit(a ^ b) == ShiftBit(a) ^ ShiftBit(b)
    {
      ShiftBitLinear(a, b);
    }
  }

  /** Eight applications of a linear map form a linear map. */
  lemma EightfoldLinear(f: bv16 -> bv16, a: bv16, b: bv16)
    requires Linear(f)
    ensures f(f(f(f(f(f(f(f(a ^ b)))))))) == f(f(f(f(f(f(f(f(a)))))))) ^ f(f(f(f(f(f(f(f(b))))))))
  {}

  /** Eight register clocks are linear over XOR. */
  lemma ShiftByteLinear(a: bv16, b: bv16)
    ensures ShiftByte(a ^ b) == ShiftByte(a) ^ ShiftByte(b)
  {
    ShiftBitIsLinear();
    EightfoldLinear(ShiftBit, a, b);
  }

  /** A register value below `m` (at most 0x8000) has a clear top bit, so a
      clock only shifts it. */
  lemma ShiftBitSmall(reg: bv16, m: bv16)
    requires reg < m <= 0x8000
    ensures ShiftBit(reg) == reg << 1
    ensures m <= 0x4000 ==> reg << 1 < m << 1
  {}

  /** A low byte is shifted up eight places without ever reaching the top bit. */
  lemma ShiftByteLowByte(reg: bv16)
    requires reg < 0x100
    ensures ShiftByte(reg) == reg << 8
  {
    ShiftBitSmall(reg, 0x100);
    ShiftBitSmall(reg << 1, 0x200);
    ShiftBitSmall(reg << 1 << 1, 0x400);
    ShiftBitSmall(reg << 1 << 1 << 1, 0x800);
    ShiftBitSmall(reg << 1 << 1 << 1 << 1, 0x1000);
    ShiftBitSmall(reg << 1 << 1 << 1 << 1 << 1, 0x2000);
    ShiftBitSmall(reg << 1 << 1 << 1 << 1 << 1 << 1, 0x4000);
    ShiftBitSmall(reg << 1 << 1 << 1 << 1 << 1 << 1 << 1, 0x8000);
    assert reg << 1 << 1 << 1 << 1 << 1 << 1 << 1 << 1 == reg << 8;
  }

  lemma SplitRegister(reg: bv16, x: bv16)
    ensures reg ^ (x << 8) == (reg & 0xFF) ^ (((reg >> 8) ^ x) << 8)
    ensures (reg & 0xFF) << 8 == reg << 8
  {}

  /** Eight register clocks are linear over XOR, for all arguments at once. */
  lemma ShiftByteIsLinear()
    ensures Linear(ShiftByte)
  {
    forall a: bv16, b: bv16
      ensures ShiftByte(a ^ b) == ShiftByte(a) ^ ShiftByte(b)
    {
      ShiftByteLinear(a, b);
    }
  }

  /** Equal registers have equal images. */
  lemma SameArgument(f: bv16 -> bv16, u: bv16, v: bv16)
    requires u == v
    ensures f(u) == f(v)
  {}

  /** XORing equal values into the same register gives equal results. */
  lemma XorRight(u: bv16, v: bv16, w: bv16)
    requires v == w
    ensures u ^ v == u ^ w
  {}

  /** A linear map of a register fed with `x << 8` is the map of the
      register's low byte XOR the map of the index byte `(reg >> 8) ^ x`. */
  lemma LinearSplit(f: bv16 -> bv16, reg: bv16, x: bv16)
    requires Linear(f)
    ensures f(reg ^ (x << 8)) == f(reg & 0xFF) ^ f(((reg >> 8) ^ x) << 8)
  {
    var lo, hi := reg & 0xFF, ((reg >> 8) ^ x) << 8;
    SplitRegister(reg, x);
    assert f(reg ^ (x << 8)) == f(lo ^ hi) by {
      SameArgument(f, reg ^ (x << 8), lo ^ hi);
    }
    assert f(lo ^ hi) == f(lo) ^ f(hi);
  }

  /** Feeding a byte into the register splits into the register's low byte,
      which merely shifts up, and the index byte, whose eight clocks the
      table records. */
  lemma RegisterStepSplit(reg: bv16, x: bv16)
    ensures ShiftByte(reg ^ (x << 8)) == (reg << 8) ^ ShiftByte(((reg >> 8) ^ x) << 8)
  {
    hide *;
    ShiftByteIsLinear();
    LinearSplit(ShiftByte, reg, x);
    LowByteXor(reg, ShiftByte(((reg >> 8) ^ x) << 8));
  }

  /** Under an XOR, the clocked low byte may be replaced by the shifted register. */
  lemma LowByteXor(reg: bv16, h: bv16)
    ensures ShiftByte(reg & 0xFF) ^ h == (reg << 8) ^ h
  {
    LowByteShift(reg);
  }

  /** The register's low byte clocks up to the register shifted left by 8. */
  lemma LowByteShift(reg: bv16)
    ensures ShiftByte(reg & 0xFF) == reg << 8
  {
    ShiftByteLowByte(reg & 0xFF);
    SplitRegister(reg, 0);
  }
}

=== FILE: upload.dfy ===
/**
  The chunk loop of `send_file` (xdl.py:239-278). The file is read 1000
  bytes at a time; for each chunk the host shows a progress message and
  sends a "W" command sealed with CRC-16/BUYPASS instead of the command
  checksum. It is passed to `__send_command` already prefixed with STX and
  with `exclude_checksum` set, so the wire carries two STX bytes and no ETX.
 */
module Upload {
  import opened Wrappers
  import opened Bytes
  import opened ShiftRegister
  import opened Crc16
  import opened Framing
  import opened Commands

  /** The largest chunk `fd.read(1000)` returns (xdl.py:242). */
  const ChunkSize: nat := 1000

  function Min(a: nat, b: nat): nat
  {
    if a <= b then a else b
  }

  /** How many chunks an n-byte file is read in: n / 1000 rounded up. */
  function ChunkCount(n: nat): (c: nat)
    ensures c * 1000 >= n
    ensures c > 0 ==> (c - 1) * 1000 < n
  {
    (n + 999) / 1000
  }

  /** The k-th chunk of the file: the bytes from offset 1000k, at most 1000
      of them. */
  function ChunkOf(data: seq<byte>, k: nat): (c: seq<byte>)
    requires k < ChunkCount(|data|)
    ensures 0 < |c| <= ChunkSize
  {
    data[k * 1000..Min(k * 1000 + 1000, |data|)]
  }

  /** The message text of the progress display (xdl.py:253): "-", backspace,
      "[", the bar, "]". The bar itself depends on floating-point division
      and is a parameter of the model. */
  function ProgressText(bar: seq<byte>): (t: seq<byte>)
    ensures |t| == |bar| + 4
    ensures t[..3] == ['-' as byte, 0x08, '[' as byte] && t[|t| - 1] == ']' as byte
    ensures t[3..|t| - 1] == bar
  {
    ['-' as byte, 0x08, '[' as byte] + bar + [']' as byte]
  }

  /** The frame that shows a progress bar. */
  function ProgressWire(bar: seq<byte>): (w: seq<byte>)
    ensures Unframe(w) == Some(Payload(Message(ProgressText(bar))))
  {
    Wire(Payload(Message(ProgressText(bar))), false)
  }

  /** The argument of `__send_command` at xdl.py:270-274: STX, the "W"
      command and its CRC, big-endian. The CRC is the bit-serial CRC of the
      command. */
  function SealedWrite(cmd: seq<byte>): (s: seq<byte>)
    ensures |s| == |cmd| + 3
    ensures s[0] == STX && s[1..|s| - 2] == cmd
    ensures BeValue(s[|s| - 2..]) == RegisterCrc(cmd, 0) as int
  {
    var s := [STX] + cmd + Be16(Crc16Buypass(cmd) as int);
    assert s[1..|s| - 2] == cmd;
    assert s[|s| - 2..] == Be16(Crc16Buypass(cmd) as int);
    s
  }

  /** The bytes written for one chunk (xdl.py:260-275): two STX, a "W"
      payload that the reference decoder `Parse` reads as the chunk at its
      offset, and right after it the CRC of that payload. */
  function WriteWire(offset: nat, chunk: seq<byte>): (w: seq<byte>)
    requires |chunk| <= ChunkSize && offset < 0x1_0000_0000
    ensures |w| == |chunk| + 11
    ensures w[0] == STX && w[1] == STX
    ensures Parse(w[2..|w| - 2]) == Some(Write(offset, chunk))
    ensures BeValue(w[|w| - 2..]) == RegisterCrc(w[2..|w| - 2], 0) as int
  {
    var cmd := Payload(Write(offset, chunk));
    assert cmd == [WriteOp] + Be16(|chunk|) + Be32(offset) + chunk;
    ParsePayload(Write(offset, chunk));
    var s := SealedWrite(cmd);
    var w := Wire(s, true);
    assert w[2..|w| - 2] == s[1..|s| - 2];
    assert w[|w| - 2..] == s[|s| - 2..];
    w
  }

  /** What the chunk loop writes, and whether it ran to the end of the file
      rather than stopping on an exception. */
  datatype Transfer = Transfer(writes: seq<seq<byte>>, completed: bool)

  /** The chunk loop of xdl.py:239-278 with `already_sent` = `sent` and loop
      counter `i`. `bar(sent, i)` stands for the progress bar bytes. An
      offset of 2^32 or more makes `struct.pack(">I", …)` raise after the
      progress message has been written. */
  function SendChunks(data: seq<byte>, sent: nat, i: nat, bar: (nat, nat) -> seq<byte>): (t: Transfer)
    requires sent <= |data|
    ensures sent < |data| ==> |t.writes| > 0 && t.writes[0] == ProgressWire(bar(sent, i))
    decreases |data| - sent
  {
    if sent == |data| then Transfer([], true)
    else
      var len := Min(ChunkSize, |data| - sent);
      var progress := ProgressWire(bar(sent, i));
      if sent >= 0x1_0000_0000 then Transfer([progress], false)
      else
        var rest := SendChunks(data, sent + len, i + 1, bar);
        var ws := [progress, WriteWire(sent, data[sent..sent + len])] + rest.writes;
        assert ws[0] == progress;
        Transfer(ws, rest.completed)
  }

  /** Files whose every chunk offset fits the four-byte field. */
  predicate OffsetsFit(n: nat)
  {
    ChunkCount(n) == 0 || (ChunkCount(n) - 1) * 1000 < 0x1_0000_0000
  }

  /** The writes of the chunk loop described by position: for chunk k, the
      progress message for offset 1000k and counter k, then the "W" frame
      carrying the k-th chunk at offset 1000k. */
  function ExpectedWrites(data: seq<byte>, bar: (nat, nat) -> seq<byte>): (ws: seq<seq<byte>>)
    requires OffsetsFit(|data|)
    ensures |ws| == 2 * ChunkCount(|data|)
  {
    seq(2 * ChunkCount(|data|), q requires 0 <= q < 2 * ChunkCount(|data|) =>
      var k := q / 2;
      if q % 2 == 0 then ProgressWire(bar(k * 1000, k))
      else WriteWire(k * 1000, ChunkOf(data, k)))
  }

  /** Where the loop stands before chunk j: `already_sent` is 1000j, or the
      file size once every chunk is sent. */
  function SentBefore(n: nat, j: nat): nat
  {
    Min(j * 1000, n)
  }

  /** The loop started at chunk j writes the expected writes from chunk j on,
      and completes when all offsets fit. */
  lemma {:induction false} SendChunksFrom(data: seq<byte>, j: nat, bar: (nat, nat) -> seq<byte>)
    requires OffsetsFit(|data|) && j <= ChunkCount(|data|)
    ensures SendChunks(data, SentBefore(|data|, j), j, bar) == Transfer(ExpectedWrites(data, bar)[2 * j..], true)
    decreases ChunkCount(|data|) - j
  {
    hide *;
    if j == ChunkCount(|data|) {
      SendChunksAtEnd(data, j, bar);
    } else {
      SendChunksFrom(data, j + 1, bar);
      SendChunksStep(data, j, bar);
      ExpectedWritesStep(data, j, bar);
    }
  }

  /** Once every chunk is sent the loop ends, writing nothing more. */
  lemma SendChunksAtEnd(data: seq<byte>, j: nat, bar: (nat, nat) -> seq<byte>)
    requires OffsetsFit(|data|) && j == ChunkCount(|data|)
    ensures SendChunks(data, SentBefore(|data|, j), j, bar) == Transfer(ExpectedWrites(data, bar)[2 * j..], true)
  {
    assert SentBefore(|data|, j) == |data|;
  }

  /** The loop stands at offset 1000j before chunk j, and one chunk later it
      stands where chunk j + 1 starts. */
  lemma SentAdvances(n: nat, j: nat)
    requires j < ChunkCount(n)
    ensures SentBefore(n, j) == j * 1000 < n
    ensures SentBefore(n, j) + Min(ChunkSize, n - SentBefore(n, j)) == SentBefore(n, j + 1)
  {
  }

  /** One turn of the loop at chunk j: the progress message and the "W"
      frame of chunk j, then the loop at chunk j + 1. */
  lemma SendChunksStep(data: seq<byte>, j: nat, bar: (nat, nat) -> seq<byte>)
    requires OffsetsFit(|data|) && j < ChunkCount(|data|)
    ensures var rest := SendChunks(data, SentBefore(|data|, j + 1), j + 1, bar);
      SendChunks(data, SentBefore(|data|, j), j, bar)
      == Transfer([ProgressWire(bar(j * 1000, j)), WriteWire(j * 1000, ChunkOf(data, j))] + rest.writes, rest.completed)
  {
    hide *;
    SentAdvances(|data|, j);
    OffsetFits(|data|, j);
    ChunkAtSent(data, j);
    SendChunksUnfolds(data, SentBefore(|data|, j), j, bar);
  }

  /** In a file whose offsets fit, chunk j's offset fits. */
  lemma OffsetFits(n: nat, j: nat)
    requires OffsetsFit(n) && j < ChunkCount(n)
    ensures j * 1000 < 0x1_0000_0000
  {
  }

  /** Chunk j is the file between where the loop stands before chunk j and
      before chunk j + 1. */
  lemma ChunkAtSent(data: seq<byte>, j: nat)
    requires j < ChunkCount(|data|)
    ensures SentBefore(|data|, j) <= SentBefore(|data|, j + 1) <= |data|
    ensures data[SentBefore(|data|, j)..SentBefore(|data|, j + 1)] == ChunkOf(data, j)
  {
  }

  /** One turn of the loop at an offset that fits, as the definition has it. */
  lemma SendChunksUnfolds(data: seq<byte>, sent: nat, i: nat, bar: (nat, nat) -> seq<byte>)
    requires sent < |data| && sent < 0x1_0000_0000
    ensures var next := sent + Min(ChunkSize, |data| - sent);
      var rest := SendChunks(data, next, i + 1, bar);
      SendChunks(data, sent, i, bar)
      == Transfer([ProgressWire(bar(sent, i)), WriteWire(sent, data[sent..next])] + rest.writes, rest.completed)
  {
  }

  /** The expected writes from chunk j on start with chunk j's two writes. */
  lemma ExpectedWritesStep(data: seq<byte>, j: nat, bar: (nat, nat) -> seq<byte>)
    requires OffsetsFit(|data|) && j < ChunkCount(|data|)
    ensures ExpectedWrites(data, bar)[2 * j..]
      == [ProgressWire(bar(j * 1000, j)), WriteWire(j * 1000, ChunkOf(data, j))] + ExpectedWrites(data, bar)[2 * (j + 1)..]
  {
    hide *;
    var ws := ExpectedWrites(data, bar);
    ExpectedWritesAt(data, j, bar);
    assert ws[2 * j..] == [ws[2 * j], ws[2 * j + 1]] + ws[2 * (j + 1)..];
  }

  /** The two expected writes of chunk j. */
  lemma ExpectedWritesAt(data: seq<byte>, j: nat, bar: (nat, nat) -> seq<byte>)
    requires OffsetsFit(|data|) && j < ChunkCount(|data|)
    ensures 2 * j + 1 < |ExpectedWrites(data, bar)|
    ensures ExpectedWrites(data, bar)[2 * j] == ProgressWire(bar(j * 1000, j))
    ensures ExpectedWrites(data, bar)[2 * j + 1] == WriteWire(j * 1000, ChunkOf(data, j))
  {
    assert (2 * j) / 2 == j && (2 * j) % 2 == 0;
    assert (2 * j + 1) / 2 == j && (2 * j + 1) % 2 == 1;
  }

  /** The chunk loop over a whole file, from offset 0 and counter 0, writes
      exactly the expected writes when every offset fits. */
  lemma SendChunksWrites(data: seq<byte>, bar: (nat, nat) -> seq<byte>)
    requires OffsetsFit(|data|)
    ensures SendChunks(data, 0, 0, bar) == Transfer(ExpectedWrites(data, bar), true)
  {
    SendChunksFrom(data, 0, bar);
    assert ExpectedWrites(data, bar)[0..] == ExpectedWrites(data, bar);
  }

  /** The loop raises exactly when some chunk offset does not fit. */
  lemma SendChunksCompletes(data: seq<byte>, bar: (nat, nat) -> seq<byte>)
    ensures SendChunks(data, 0, 0, bar).completed <==> OffsetsFit(|data|)
  {
    if OffsetsFit(|data|) {
      SendChunksWrites(data, bar);
    } else {
      var last := ChunkCount(|data|) - 1;
      SendChunksRaises(data, 0, last, bar);
    }
  }

  /** Started at chunk j, the loop raises on chunk `last` when its offset
      does not fit. */
  lemma {:induction false} SendChunksRaises(data: seq<byte>, j: nat, last: nat, bar: (nat, nat) -> seq<byte>)
    requires j <= last < ChunkCount(|data|) && last * 1000 >= 0x1_0000_0000
    ensures !SendChunks(data, SentBefore(|data|, j), j, bar).completed
    decreases last - j
  {
    hide *;
    SentAdvances(|data|, j);
    SendChunksGoesOn(data, SentBefore(|data|, j), j, bar);
    if j < last {
      SendChunksRaises(data, j + 1, last, bar);
    } else {
      RaisingOffset(j, last);
    }
  }

  /** The last chunk of a file that does not fit sits at an offset that does
      not fit. */
  lemma RaisingOffset(j: nat, last: nat)
    requires j == last && last * 1000 >= 0x1_0000_0000
    ensures !(j * 1000 < 0x1_0000_0000)
  {
  }

  /** One turn of the loop completes only when its offset fits and the rest
      of the loop completes. */
  lemma SendChunksGoesOn(data: seq<byte>, sent: nat, i: nat, bar: (nat, nat) -> seq<byte>)
    requires sent < |data|
    ensures SendChunks(data, sent, i, bar).completed <==>
      sent < 0x1_0000_0000 && SendChunks(data, sent + Min(ChunkSize, |data| - sent), i + 1, bar).completed
  {
  }

  /** The chunks, in order. */
  function Chunks(data: seq<byte>): (cs: seq<seq<byte>>)
    ensures |cs| == ChunkCount(|data|)
  {
    seq(ChunkCount(|data|), k requires 0 <= k < ChunkCount(|data|) => ChunkOf(data, k))
  }

  /** Concatenation of a sequence of byte strings. */
  function Flatten(cs: seq<seq<byte>>): seq<byte>
  {
    if |cs| == 0 then [] else cs[0] + Flatten(cs[1..])
  }

  /** Every chunk but the last is 1000 bytes; the last is what remains. */
  lemma ChunkLength(data: seq<byte>, k: nat)
    requires k < ChunkCount(|data|)
    ensures |ChunkOf(data, k)| == Min(ChunkSize, |data| - k * 1000)
    ensures k + 1 < ChunkCount(|data|) ==> |ChunkOf(data, k)| == ChunkSize
  {
  }

  /** The chunks from chunk j on put back together are the file from offset
      1000j on. */
  lemma {:induction false} ChunksCoverFrom(data: seq<byte>, j: nat)
    requires j <= ChunkCount(|data|)
    ensures Flatten(Chunks(data)[j..]) == data[SentBefore(|data|, j)..]
    decreases ChunkCount(|data|) - j
  {
    var cs := Chunks(data);
    if j == ChunkCount(|data|) {
      assert cs[j..] == [];
    } else {
      ChunksCoverFrom(data, j + 1);
      assert cs[j..][1..] == cs[j + 1..];
      var sent := SentBefore(|data|, j);
      var next := SentBefore(|data|, j + 1);
      assert cs[j] == data[sent..next];
      assert data[sent..] == data[sent..next] + data[next..];
    }
  }

  /** The chunks put back together are the file: nothing is lost, repeated
      or reordered, and their lengths add up to the file size. */
  lemma ChunksCover(data: seq<byte>)
    ensures Flatten(Chunks(data)) == data
    ensures |Flatten(Chunks(data))| == |data|
  {
    ChunksCoverFrom(data, 0);
    assert Chunks(data)[0..] == Chunks(data);
  }
}

=== FILE: wrappers.dfy ===
/** The optional value used for "no answer" results throughout the model. */
module Wrappers {

  /** Python's `None` versus a present value. */
  datatype Option<+T> = None | Some(value: T)
}
